=== FILE: README.md ===
# Deploying Discord application commands: a Dafny model

djsCommandHelper registers a bot's slash commands with Discord. This project
models the deployment core of its two variants:

- `cDClient.deployCommands` of `index.js`. It loads every `.js` file of a
  commands folder and sorts the modules into global and guild-scoped commands.
  It diffs the global ones against the commands already registered, then sends
  the DELETEs, the POSTs and one bulk PUT. Finally it posts each guild-scoped
  command to each of its guilds. The structural comparison `deepEqual` of the
  same file decides what counts as changed.
- `deployCommands` and `deleteCommand` of `index.ts`, with their `Routes`
  helper. `deployCommands` sends a PUT of every global command and then the
  guild POSTs, and resolves to `true` or `false`. `deleteCommand` deletes one
  command by its numeric id.

Modules, in dependency order:

- `Results`: `Option` and `Result`.
- `Seqs`: order-preserving `Filter`, with the lemma that it is the unique
  subsequence keeping exactly the selected copies.
- `Json`: JavaScript values as the code sees them. It covers truthiness,
  `typeof`, `Object.keys`, including the index keys of arrays, property reads,
  and template-literal text.
- `DeepEquality`: `deepEqual`, characterised as equality of canonical forms,
  where a canonical form forgets property order.
- `PathText` and `Routes`: the four REST routes and a parser that inverts
  them.
- `Loader`: the classification loop over the folder's files.
- `Differ`: the three global lists `_new`, `updated` and `toDelete`.
- `Requests`: the requests, an outcome oracle, and sequential execution that
  aborts at the first failure.
- `DeployJs` and `DeployTs`: the two variants end to end.

The network is an oracle. `outcomes[k]` says whether the `k`-th request sent
succeeds, and positions past its end succeed. The filesystem is a sequence of
files with what each exports. The registered commands and the client's guild
ids are inputs.

A reconciliation plan might be expected to turn the remote set into the
local set. The code does something narrower, and the model follows the code:

- The closing PUT carries only the updated commands.
- Names are compared loosely (`==`) in two loops and strictly (`===`) in
  `find`.
- Duplicate local names are not merged.

`Differ.DuplicateNamesBothCreated` and `Differ.IdForcesUpdate` state two
consequences.

Command data and remote records are arbitrary JSON values, `null` included.
Reading a property of `null` throws a `TypeError`, and the model keeps every
place where the code does that:

- the `some` and `find` callbacks of the diff;
- the `id` of a record to delete;
- the `name` that the `created` and `updated` log lines, the guild warning and
  the guild catch handler print;
- the `name` that index.ts prints for an ignored module.

Inside the outer `try` of index.js such an error is caught like a failed
request, and inside the `try` of index.ts it makes the result `false`. The log
options are therefore part of the model: they decide whether those reads happen.

## Model

| member | source | states |
|---|---|---|
| DeepEquality.DeepEqual | index.js:274-306 | equal values are deeply equal; two different values can be deeply equal only when both are arrays or non-null objects |
| DeepEquality.UnfoldObjects | index.js:288-303 | for two different arrays or objects, `deepEqual` holds exactly when they have as many keys and each key of the first is a key of the second with deeply equal values |
| DeepEquality.DeepEqualIffSameCanonical | index.js:274-306 | on values without repeated keys, `deepEqual` holds exactly when both have the same canonical form: the same primitive, or the same key set with deeply equal values under each key |
| DeepEquality.DeepEqualSymmetric | index.js:274-306 | `deepEqual(a, b)` and `deepEqual(b, a)` always agree, although the loop only walks the keys of the first argument |
| DeepEquality.DeepEqualTransitive | index.js:274-306 | `deepEqual` is transitive |
| DeepEquality.KeyOrderIgnored | index.js:288-303 | two objects with the same properties in any order are deeply equal |
| DeepEquality.ArraysCompareByIndex | index.js:279-303 | two arrays are deeply equal exactly when they have the same length and are deeply equal element by element |
| DeepEquality.MissingKeyUnequal | index.js:291-298 | a key present on one side only makes two values unequal |
| DeepEquality.ArrayEqualsIndexObject | index.js:288-289 | `[1]` is deeply equal to `{"0": 1}`, because `Object.keys` of an array gives its index strings |
| DeepEquality.ObjectExamples | index.js:274-306 | `{a:1,b:2}` equals `{b:2,a:1}`; `{a:1}` differs from `{a:1,b:2}` |
| Json.Truthy | index.js:280-281 | exactly `null`, `false`, `0` and `""` are falsy; arrays and objects are truthy, so a found remote record that is an array or an object always passes the test of index.js:120 |
| Json.TypeOf | index.js:282-283 | `typeof` gives "object" exactly for `null`, arrays and objects |
| Json.DecimalRoundTrip | index.js:288 | the decimal numeral of an index reads back as that index, so the keys of an array name its indices |
| Json.InterpolateNumber | index.js:139 | a numeric `id` prints in the DELETE path as its decimal numeral, with a leading `-` when negative |
| Json.InterpolateExamples | index.js:139 | a missing `id` prints as `undefined`, an array as its elements joined by commas with `null` as empty, an object as `[object Object]` |
| Routes.RoutesNest | index.ts:6-23 | a single-command route is its collection route followed by `/` and the command id, globally and per guild |
| Routes.ParsePath | index.ts:6-23 | parsing the path of any route with slash-free ids gives back that route |
| Routes.PathOfParse | index.ts:6-23 | every string that parses as a route is exactly that route's path, and its ids are slash-free |
| Routes.PathInjective | index.ts:6-23 | two different routes with slash-free ids have different paths |
| Loader.FileContribution | index.js:57-78 | loading one file fails exactly when it throws: the `in` test on an export that is not an object, or index.ts logging the name of an ignored module whose data is `null`; otherwise the file adds at most one command |
| Loader.Classify | index.js:57-79 | classification fails exactly when some file throws; every guild-scoped command has at least one guild id; no more commands than files |
| Loader.ClassifyConcat | index.js:57-79 | classifying two runs of files in sequence puts their buckets side by side, keeping folder order |
| Loader.ClassifySkip | index.js:60-69 | a non-`.js` file, a module without `data` or `run`, or an ignored module that does not throw leaves both buckets unchanged |
| Loader.ClassifyMembership | index.js:71-78 | a value is in `commands` exactly when some kept module without guild ids has it as `data`; a pair is in `privates` exactly when some kept module with guild ids has that `data` and those ids |
| Loader.RunCheckOnlyInJs | index.ts:54-63 | the index.ts filter keeps every module the index.js filter keeps, plus exactly those with `data` but no `run` that are not ignored |
| Loader.IgnoredNullData | index.ts:59-62 | an ignored module with `null` data makes index.ts fail when it logs, and is skipped when it does not log and by index.js |
| Seqs.ScanSteps | index.js:111 | `some` and `find` stop at the first callback that returns `true` or throws: they throw exactly when a throw comes before any hit, find the first hit, and find nothing exactly when every callback misses |
| Differ.SomeName | index.js:111 | `some` over the records throws exactly when a callback reads `name` of `null` before any match; otherwise it tells whether some record has a loosely equal name |
| Differ.FindName | index.js:117-119 | `find` throws exactly when a callback reads `name` of `null` before any match; otherwise it gives the first record whose name is strictly equal, or nothing exactly when none is |
| Differ.NewLoop | index.js:110-114 | the first loop throws exactly when some `some` call throws; otherwise it keeps, in order, the local commands with no loosely-equal remote name |
| Differ.ChangedLoop | index.js:116-123 | the second loop throws exactly when some `find` call throws; otherwise it keeps, in order, the local commands whose first strict match is truthy and not deeply equal |
| Differ.StaleLoop | index.js:125-129 | over the registered records, the third loop throws exactly when some `some` call throws; otherwise it keeps, in order, the records whose name no local command loosely equals |
| Differ.Diff | index.js:105-129 | the diff throws exactly when a callback of one of the three loops reads `name` of `null`; otherwise its lists are the three order-preserving filters |
| Differ.DiffMembership | index.js:105-129 | when the diff succeeds, `_new` holds the local commands with no loosely-equal remote name, `updated` those whose first strict match is truthy and not deeply equal, and `toDelete` the remote records with no loosely-equal local name |
| Differ.DiffExact | index.js:110-129 | when the diff succeeds, each list is an order-preserving subsequence of its source that keeps every copy of a selected element and nothing else |
| Differ.NoNullNoThrow | index.js:110-129 | with no `null` among the local commands and the remote records, the diff never throws |
| Differ.NullCommandThrows | index.js:110-114 | a `null` local command throws as soon as one remote record exists |
| Differ.NothingRegisteredCreatesAll | index.js:110-129 | with nothing registered every local command, `null` included, is created, and nothing is updated or deleted |
| Differ.UpdatedNeverNull | index.js:116-123 | `updated` never holds `null`, so the log line of index.js:158-161 cannot throw |
| Differ.NeedsUpdateIffCanonical | index.js:116-123 | a named command is updated exactly when its first strictly name-matched record exists and has a different canonical form |
| Differ.CreateIsUnique | index.js:110-114 | `_new` is the only such subsequence of the local commands |
| Differ.UpdateHasRemote | index.js:111-121 | a command to update has a loosely-equal remote name |
| Differ.CreateUpdateDisjoint | index.js:110-123 | no command is both created and updated |
| Differ.DeleteNamesDisjoint | index.js:110-129 | a deleted record never shares its name with a created or an updated command |
| Differ.UnchangedIsLeftAlone | index.js:116-123 | a command deeply equal to its first strict match is neither created nor updated |
| Differ.DiffPartition | index.js:110-123 | every copy of every local command is in exactly one of `_new`, `updated` and the unchanged commands |
| Differ.IdForcesUpdate | index.js:116-123 | local data without an `id` is always updated when its matched remote record has one, even if every other field agrees |
| Differ.DuplicateNamesBothCreated | index.js:110-114 | two local commands with the same unmatched name are both created, in order |
| Differ.EntriesAllStale | index.js:125-129 | walking `Collection` entries, every registered command is put in `toDelete` when all local commands are named |
| Differ.EntryLoopDeletesLiveCommand | index.js:125-129 | a registered command that the folder still defines is kept by the loop over records and deleted by the loop over entries |
| Requests.Execute | index.js:137-162 | awaited requests in one `try`: the requests sent are a prefix of the plan; the run is good exactly when every request succeeds; otherwise the last request sent is the first failure |
| Requests.ExecuteAppend | index.js:137-157 | two batches in one `try` run the second only when all of the first succeeded, continuing the oracle where the first ended |
| Requests.SuccessCount | index.js:202 | the count of successes among n requests is at most n, and equals n exactly when all succeed |
| Requests.Pairs | index.js:184-185 | the guild loops visit no pair exactly when no guild-scoped command has a guild id |
| Requests.PairsAppend | index.js:184-185 | the guild loops visit command by command |
| Requests.PairsMembership | index.js:184-185 | a (data, guild) pair is visited exactly when some guild-scoped command has that data and that guild id |
| Requests.GuildPosts | index.js:192-197 | one POST to the guild-commands route per pair, with the pair's data as the body |
| DeployJs.DeleteTargetsRecordId | index.js:137-140 | a string id is used as it is, a number in decimal, and a missing id as `undefined`; a slash-free string id parses back as that command's route |
| DeployJs.EntriesDeleteUndefined | index.js:137-140 | walking `Collection` entries, every DELETE goes to the command named `undefined` |
| DeployJs.CreatesTargetCollection | index.js:146-149 | every POST of a new command parses back as the global command collection and carries that command |
| DeployJs.GlobalRequests | index.js:137-157 | all DELETEs, then all POSTs, then exactly one PUT whose body is the array of updated commands |
| DeployJs.GlobalCut | index.js:137-161 | the global requests run to the end exactly when no record to delete is `null` and, with `created` logging, no created command is; otherwise they stop before the DELETE of the first `null` record or after the POST of the first `null` command |
| DeployJs.GlobalPhase | index.js:105-161 | a throwing diff sends nothing; otherwise a prefix of the global requests is sent, and the phase completes exactly when all are sent and succeed and no read meets `null` |
| DeployJs.GlobalPhaseAgrees | index.js:137-157 | the global phase depends on the oracle only at the positions of the global requests |
| DeployJs.GuildLoop | index.js:183-214 | POSTs only for the pairs whose guild is among the client's guilds, in visiting order; without a throw `updatedPrivates` counts the successful POSTs; a throw needs a pair with `null` data |
| DeployJs.GuildStepsAppend | index.js:184-214 | pairs without `null` data never end the guild loop early: the pairs after them continue with the next outcome, adding their POSTs and successes to those before |
| DeployJs.NullGuildDataStops | index.js:184-211 | the first pair with `null` data ends the guild loop at that pair, after the POSTs of the reachable pairs before it and with their successes counted: at the warning when its guild is unknown, after its own POST when that POST fails or `updated` logging is on |
| DeployJs.DeployJs | index.js:48-222 | rejects exactly when some file throws while loading; the global phase comes first; when it does not complete the error is caught, nothing follows and `updatedPrivates` is 0; a later catch needs `null` guild data |
| DeployJs.JsTraceWhenGlobalSucceeds | index.js:137-214 | with no `null` anywhere and the global requests succeeding, the trace is the deletes, the creates, the PUT, then one POST per reachable pair, and nothing is caught |
| DeployJs.JsAbortsAtFirstFailure | index.js:88-222 | the first failing global request before any `null` read is the last request sent, and the error is caught |
| DeployJs.JsNullReadAborts | index.js:137-151 | a `null` read in the send loops ends the run after the requests before it, and the error is caught |
| DeployJs.JsGuildFailuresIsolated | index.js:191-207 | with no `null` guild data, failing guild POSTs never change which requests are sent |
| DeployJs.JsNoGuildPostsWithoutClientGuilds | index.js:168-190 | with the client's guild list empty, as it stays once the early readiness check has passed, no guild POST is sent |
| DeployJs.JsUpdatedPrivatesBound | index.js:183-202 | `updatedPrivates` never exceeds the number of command-guild pairs |
| DeployJs.JsNullDataAgainstRegistered | index.js:110-114 | a module with `null` data and one registered command: nothing is sent and the error is caught |
| DeployJs.JsNullDataCreated | index.js:146-151 | a module with `null` data and nothing registered: its POST is sent, then the `created` log line throws; with logging off the PUT follows |
| DeployTs.TsPlan | index.ts:75-88 | the PUT of the whole global array first, then one guild POST per pair |
| DeployTs.DeployTs | index.ts:31-94 | throws exactly when `appToken` or `appId` is missing or empty; a failed load gives `false` with nothing sent; otherwise sends a prefix of the plan that ends at the first failing request, and resolves `true` exactly when every request succeeds |
| DeployTs.TsAlwaysPuts | index.ts:75-77 | the first request is always the PUT of all global commands, even when there are none |
| DeployTs.TsFailureStops | index.ts:75-93 | any failing request ends the run with `false` and sends nothing after it: a failing PUT sends no guild POST, a failing guild POST no later one |
| DeployTs.DeletePath | index.ts:103-107 | the path is the guild collection route followed by `/` and the id when `guildId` is truthy, the global one otherwise |
| DeployTs.DeleteTs | index.ts:99-117 | one DELETE exactly when the id is all digits; a non-numeric id is rejected with nothing sent; resolves exactly when the id is numeric and the DELETE succeeds |
| DeployTs.DeleteIdCheck | index.ts:109-115 | a decimal numeral, with or without a leading zero, is sent as one DELETE; `""` and `"ping"` are rejected with nothing sent |
| DeployTs.DeleteTargetsChosenRoute | index.ts:103-107 | the DELETE parses back as the guild command when `guildId` is truthy, as the global command otherwise |

## Left out

- Reading the folder and loading modules (`readdirSync`, `require`, `import`): files are an input sequence with what each exports.
- The discord.js client, its token, `isReady`, caches and `fetch`: the registered commands are an input list, and the client's guild ids are an input sequence.
- The early returns of index.js:28-46 before any request: the model starts from a logged-in client with an application id.
- A `null` `logOptions` at index.js:35: reading `noLogs` of `null` throws before the `try`; the model always has an options object.
- The log switches: those set to `undefined` count as off after `Object.assign` at index.js:41; the model's switches are absent or boolean.
- The registered commands at index.js:125: the model's diff walks the records, as the `some` and `find` calls of index.js:111 and 117 do; the loop as written walks `Collection` entries (see Findings).
- The polling loop of index.js:172-176: it runs only when the client is not ready, which the earlier check at index.js:43 excludes.
- `cDClient.deleteCommand` of index.js:233-269: it checks readiness and rejects a truthy `guildId` that is not all digits, then deletes through the discord.js command manager, by id or after a cache lookup or `fetch` by name; that manager is not part of this model.
- Log output, the `status`, `deleted` and `ignored` log lines, and the `data` read back from each request. The model keeps only the log reads that can throw. The `deleted` line reads `name` of a record whose `id` was already read, and the `ignored` line of index.js reads the module itself.
- The responses read at index.ts:78 and 86 (`data.length`, `data.name`): responses are not modelled, so neither is a response that makes these reads throw.
- A module whose `data` property holds `undefined`: command data is a JSON value.
- What Discord does with the requests, including the bulk-overwrite meaning of the PUT: the model describes the requests sent, not the remote end state.
- types.d.ts and index.d.ts: type declarations only.
- Numbers are integers: floating point and `NaN` are not modelled.
- Differ.LooseEquals: models `==` on names as structural equality plus `null == undefined`; JavaScript's other coercions (such as `1 == "1"`) are left out, because command names are strings.
- Differ.FindStep: models `===` on names as structural equality, so two distinct objects with equal fields count as the same name; JavaScript compares objects by identity. Command names are strings, where the two agree.
- DeepEquality.DeepEqual: the `===` fast path compares values structurally, without object identity; on well-formed values the result is the same, because structurally equal objects are also deeply equal.
- Loader.Classify: `guildIds` is a sequence of strings; a non-array `guildIds` is not modelled.
- DeployJs.JsTraceWhenGlobalSucceeds: stated only when no command, remote record or guild-scoped data is `null`; the `null` cases have their own lemmas (DeployJs.JsNullReadAborts, DeployJs.NullGuildDataStops).
- DeployJs.JsGuildFailuresIsolated: stated for guild-scoped data without `null`; with `null` data a failing POST ends the loop (DeployJs.NullGuildDataStops).
- DeployTs.DeleteTs: the `appToken` option and the REST version have no effect on the route and are not parameters.

## Findings

| source | as written | input that shows it | evidently intended | confidence | as-written member | corrected member |
|---|---|---|---|---|---|---|
| index.js:125-129 | `for (const currentCommand of currentCommands)` walks a discord.js `Collection`, a `Map`, so each element is an `[id, command]` entry whose `name` and `id` are undefined | the local command `{name: "ping"}` and one registered command `{name: "ping", id: "1"}` under id `"1"`: the entry has no name, so the command is put in `toDelete` and deleted at `/applications/{appId}/commands/undefined` | walk the registered commands themselves (`currentCommands.values()`), so that a command the folder still defines is kept | not executed; rests on `Collection` iterating as a `Map` | Differ.EntryLoopDeletesLiveCommand | Differ.StaleLoop |

=== FILE: deep_equal.dfy ===
/** The structural equality `deepEqual` of index.js, and its characterisation as
    equality of canonical forms in which property order is forgotten and arrays
    are objects keyed by their index strings. */
module DeepEquality {
  import opened Seqs
  import opened Json

  /** `deepEqual(v1, v2)`: equal values (the `===` fast path, read structurally)
      are equal; otherwise both must be truthy objects with the same number of
      keys, every key of `v1` must be a key of `v2`, and the values under each
      key must be deeply equal. */
  function DeepEqual(v1: Value, v2: Value): (equal: bool)
    ensures v1 == v2 ==> equal
    ensures equal && v1 != v2 ==> IsObject(v1) && IsObject(v2)
    decreases v1
  {
    if v1 == v2 then true
    else if !Truthy(v1) || !Truthy(v2) || TypeOf(v1) != "object" || TypeOf(v2) != "object" then false
    else
      var keys1 := OwnKeys(v1);
      var keys2 := OwnKeys(v2);
      |keys1| == |keys2| &&
      forall i :: 0 <= i < |keys1| ==> keys1[i] in keys2 && DeepEqual(Child(v1, i), Get(v2, keys1[i]))
  }

  /** The order-free shape of a value: a primitive stays itself, an array or
      object becomes the map from its keys to the shapes of its values. */
  datatype Canon = Leaf(v: Value) | Node(m: map<string, Canon>)

  function Canonical(v: Value): (c: Canon)
    requires WellFormed(v)
    ensures !IsObject(v) ==> c == Leaf(v)
    ensures IsObject(v) ==> c.Node? && c.m.Keys == Elements(OwnKeys(v))
    ensures IsObject(v) ==> forall i :: 0 <= i < |OwnKeys(v)| ==>
              WellFormed(Child(v, i)) && c.m[OwnKeys(v)[i]] == Canonical(Child(v, i))
    decreases v, 1
  {
    if IsObject(v) then Node(Entries(v)) else Leaf(v)
  }

  /** The map from each key of an array or object to the canonical form of
      the value under it. */
  function Entries(v: Value): (m: map<string, Canon>)
    requires WellFormed(v) && IsObject(v)
    ensures m.Keys == Elements(OwnKeys(v))
    ensures forall i :: 0 <= i < |OwnKeys(v)| ==>
              WellFormed(Child(v, i)) && m[OwnKeys(v)[i]] == Canonical(Child(v, i))
    decreases v, 0
  {
    var keys := OwnKeys(v);
    KeysDistinct(v);
    forall i | 0 <= i < |keys| ensures WellFormed(Child(v, i)) {
      ChildWellFormed(v, i);
    }
    ChildrenSmaller(v);
    KeyMap(keys, seq(|keys|, i requires 0 <= i < |keys| => Canonical(Child(v, i))))
  }

  /** The map sending the `i`-th of some distinct keys to the `i`-th value. */
  function KeyMap(keys: seq<string>, vals: seq<Canon>): (m: map<string, Canon>)
    requires |keys| == |vals| && Distinct(keys)
    ensures m.Keys == Elements(keys)
    ensures forall i :: 0 <= i < |keys| ==> m[keys[i]] == vals[i]
  {
    map i | 0 <= i < |keys| :: keys[i] := vals[i]
  }

  lemma ChildrenSmaller(v: Value)
    requires IsObject(v)
    ensures forall i :: 0 <= i < |OwnKeys(v)| ==> Child(v, i) < v
  {
    if v.Obj? {
      forall i | 0 <= i < |v.fields| ensures Child(v, i) < v {
        assert v.fields[i] in v.fields;
      }
    }
  }

  lemma ChildWellFormed(v: Value, i: nat)
    requires WellFormed(v) && i < |OwnKeys(v)|
    ensures WellFormed(Child(v, i))
  {
  }

  /** Reading a key of an array or a well-formed object gives a well-formed
      value, the one stored at the key's position. */
  lemma GetWellFormed(v: Value, k: string)
    requires WellFormed(v) && k in OwnKeys(v)
    ensures WellFormed(Get(v, k))
    ensures Get(v, k) == Child(v, IndexOf(OwnKeys(v), k))
  {
    ChildWellFormed(v, IndexOf(OwnKeys(v), k));
  }

  /** The object case of `deepEqual`, for two different values. */
  lemma UnfoldObjects(a: Value, b: Value)
    requires IsObject(a) && IsObject(b) && a != b
    ensures DeepEqual(a, b) <==>
              |OwnKeys(a)| == |OwnKeys(b)| &&
              forall i :: 0 <= i < |OwnKeys(a)| ==>
                OwnKeys(a)[i] in OwnKeys(b) && DeepEqual(Child(a, i), Get(b, OwnKeys(a)[i]))
  {
    assert Truthy(a) && Truthy(b) && TypeOf(a) == "object" && TypeOf(b) == "object";
  }

  /** Same key count, every key of `a` a key of `b`, and equal canonical forms
      under each key: then the canonical forms of `a` and `b` are equal. */
  lemma SameKeysSameCanonical(a: Value, b: Value)
    requires WellFormed(a) && WellFormed(b) && IsObject(a) && IsObject(b)
    requires |OwnKeys(a)| == |OwnKeys(b)|
    requires forall i :: 0 <= i < |OwnKeys(a)| ==> OwnKeys(a)[i] in OwnKeys(b)
    requires forall i :: 0 <= i < |OwnKeys(a)| ==>
               WellFormed(Get(b, OwnKeys(a)[i])) && Canonical(Child(a, i)) == Canonical(Get(b, OwnKeys(a)[i]))
    ensures Canonical(a) == Canonical(b)
  {
    var K1, K2 := OwnKeys(a), OwnKeys(b);
    KeysDistinct(a);
    KeysDistinct(b);
    SameElementsBySize(K1, K2);
    var M1, M2 := Canonical(a).m, Canonical(b).m;
    forall k | k in M1.Keys
      ensures M1[k] == M2[k]
    {
      var i := IndexOf(K1, k);
      EntryAt(a, k);
      EntryAt(b, k);
      assert Get(a, k) == Child(a, i);
    }
    SameEntriesSameNode(Canonical(a), Canonical(b));
  }

  /** The canonical form of an array or object maps each key to the
      canonical form of the value read under it. */
  lemma EntryAt(v: Value, k: string)
    requires WellFormed(v) && IsObject(v) && k in OwnKeys(v)
    ensures WellFormed(Get(v, k))
    ensures Canonical(v).m[k] == Canonical(Get(v, k))
  {
    ChildWellFormed(v, IndexOf(OwnKeys(v), k));
  }

  lemma SameEntriesSameNode(c1: Canon, c2: Canon)
    requires c1.Node? && c2.Node? && c1.m.Keys == c2.m.Keys
    requires forall k :: k in c1.m.Keys ==> c1.m[k] == c2.m[k]
    ensures c1 == c2
  {
    assert c1.m == c2.m;
  }

  /** Conversely, equal canonical forms mean the same key count, every key of
      `a` a key of `b`, and equal canonical forms under each key. */
  lemma SameCanonicalSameKeys(a: Value, b: Value)
    requires WellFormed(a) && WellFormed(b) && IsObject(a) && IsObject(b)
    requires Canonical(a) == Canonical(b)
    ensures |OwnKeys(a)| == |OwnKeys(b)|
    ensures forall i :: 0 <= i < |OwnKeys(a)| ==>
              OwnKeys(a)[i] in OwnKeys(b) && WellFormed(Get(b, OwnKeys(a)[i])) &&
              Canonical(Child(a, i)) == Canonical(Get(b, OwnKeys(a)[i]))
  {
    var K1, K2 := OwnKeys(a), OwnKeys(b);
    KeysDistinct(a);
    KeysDistinct(b);
    DistinctCardinality(K1);
    DistinctCardinality(K2);
    forall i | 0 <= i < |K1|
      ensures K1[i] in K2 && WellFormed(Get(b, K1[i])) && Canonical(Child(a, i)) == Canonical(Get(b, K1[i]))
    {
      assert K1[i] in Elements(K2);
      GetWellFormed(b, K1[i]);
    }
  }

  /** `deepEqual` decides exactly whether two values have the same canonical
      form: the same primitive, or the same set of keys with deeply equal values
      under each key, whatever the order of the keys. */
  lemma {:induction false} DeepEqualIffSameCanonical(a: Value, b: Value)
    requires WellFormed(a) && WellFormed(b)
    ensures DeepEqual(a, b) <==> Canonical(a) == Canonical(b)
    decreases a
  {
    if a == b {
    } else if !IsObject(a) || !IsObject(b) {
    } else {
      var K1, K2 := OwnKeys(a), OwnKeys(b);
      UnfoldObjects(a, b);
      forall i | 0 <= i < |K1| && K1[i] in K2
        ensures WellFormed(Get(b, K1[i]))
        ensures DeepEqual(Child(a, i), Get(b, K1[i])) <==> Canonical(Child(a, i)) == Canonical(Get(b, K1[i]))
      {
        ChildWellFormed(a, i);
        GetWellFormed(b, K1[i]);
        DeepEqualIffSameCanonical(Child(a, i), Get(b, K1[i]));
      }
      if DeepEqual(a, b) {
        SameKeysSameCanonical(a, b);
      }
      if Canonical(a) == Canonical(b) {
        SameCanonicalSameKeys(a, b);
      }
    }
  }

  /** `deepEqual` is symmetric on JavaScript values. */
  lemma DeepEqualSymmetric(a: Value, b: Value)
    requires WellFormed(a) && WellFormed(b)
    ensures DeepEqual(a, b) == DeepEqual(b, a)
  {
    DeepEqualIffSameCanonical(a, b);
    DeepEqualIffSameCanonical(b, a);
  }

  /** `deepEqual` is transitive on JavaScript values. */
  lemma DeepEqualTransitive(a: Value, b: Value, c: Value)
    requires WellFormed(a) && WellFormed(b) && WellFormed(c)
    requires DeepEqual(a, b) && DeepEqual(b, c)
    ensures DeepEqual(a, c)
  {
    DeepEqualIffSameCanonical(a, b);
    DeepEqualIffSameCanonical(b, c);
    DeepEqualIffSameCanonical(a, c);
  }

  /** Two objects holding the same properties in any order are deeply equal. */
  lemma KeyOrderIgnored(fs: seq<(string, Value)>, gs: seq<(string, Value)>)
    requires WellFormed(Obj(fs)) && WellFormed(Obj(gs))
    requires multiset(fs) == multiset(gs)
    ensures DeepEqual(Obj(fs), Obj(gs))
  {
    var M1, M2 := Canonical(Obj(fs)).m, Canonical(Obj(gs)).m;
    forall k | k in M1.Keys
      ensures k in M2.Keys && M1[k] == M2[k]
    {
      var i := FieldOf(fs, k);
      assert fs[i] in multiset(gs);
      var j :| 0 <= j < |gs| && gs[j] == fs[i];
      FieldEntry(fs, i);
      FieldEntry(gs, j);
    }
    forall k | k in M2.Keys
      ensures k in M1.Keys
    {
      var j := FieldOf(gs, k);
      assert gs[j] in multiset(fs);
      var i :| 0 <= i < |fs| && fs[i] == gs[j];
      FieldEntry(fs, i);
    }
    SameEntriesSameNode(Canonical(Obj(fs)), Canonical(Obj(gs)));
    DeepEqualIffSameCanonical(Obj(fs), Obj(gs));
  }

  /** The position of a key in the canonical form of an object. */
  function FieldOf(fs: seq<(string, Value)>, k: string): (i: nat)
    requires WellFormed(Obj(fs)) && k in Canonical(Obj(fs)).m
    ensures i < |fs| && fs[i].0 == k
  {
    IndexOf(OwnKeys(Obj(fs)), k)
  }

  /** The canonical form of an object maps the name of each field to the
      canonical form of its value. */
  lemma FieldEntry(fs: seq<(string, Value)>, i: nat)
    requires WellFormed(Obj(fs)) && i < |fs|
    ensures WellFormed(fs[i].1)
    ensures fs[i].0 in Canonical(Obj(fs)).m && Canonical(Obj(fs)).m[fs[i].0] == Canonical(fs[i].1)
  {
    assert OwnKeys(Obj(fs))[i] == fs[i].0 && Child(Obj(fs), i) == fs[i].1;
  }

  lemma ArraysCompareByIndex(xs: seq<Value>, ys: seq<Value>)
    ensures DeepEqual(Arr(xs), Arr(ys)) <==>
              |xs| == |ys| && forall i :: 0 <= i < |xs| ==> DeepEqual(xs[i], ys[i])
  {
    if xs != ys {
      UnfoldObjects(Arr(xs), Arr(ys));
      IndexKeyInjective();
      forall i | 0 <= i < |xs| && i < |ys|
        ensures OwnKeys(Arr(xs))[i] in OwnKeys(Arr(ys))
        ensures Get(Arr(ys), OwnKeys(Arr(xs))[i]) == ys[i]
      {
        assert OwnKeys(Arr(ys))[i] == NatToString(i);
      }
      if |xs| == |ys| {
        assert forall i :: 0 <= i < |xs| ==> OwnKeys(Arr(xs))[i] in OwnKeys(Arr(ys));
      }
    }
  }

  /** A key present on one side only makes two values unequal; in particular a
      remote record's `id` makes it differ from local data without one. */
  lemma MissingKeyUnequal(local: Value, remote: Value, k: string)
    requires WellFormed(local) && WellFormed(remote)
    requires k in OwnKeys(remote) && k !in OwnKeys(local)
    ensures !DeepEqual(local, remote)
  {
    if IsObject(local) {
      DeepEqualIffSameCanonical(local, remote);
      assert k in Canonical(remote).m.Keys;
    }
  }

  /** As in JavaScript, an array equals the object whose keys are its index
      strings. */
  lemma ArrayEqualsIndexObject()
    ensures DeepEqual(Arr([Num(1)]), Obj([("0", Num(1))]))
  {
    var a, b := Arr([Num(1)]), Obj([("0", Num(1))]);
    assert NatToString(0) == "0";
    assert OwnKeys(a) == ["0"] == OwnKeys(b);
    UnfoldObjects(a, b);
  }

  /** `{a: 1, b: 2}` equals `{b: 2, a: 1}`; `{a: 1}` does not equal `{a: 1, b: 2}`. */
  lemma ObjectExamples()
    ensures DeepEqual(Obj([("a", Num(1)), ("b", Num(2))]), Obj([("b", Num(2)), ("a", Num(1))]))
    ensures !DeepEqual(Obj([("a", Num(1))]), Obj([("a", Num(1)), ("b", Num(2))]))
  {
    var fs := [("a", Num(1)), ("b", Num(2))];
    var gs := [("b", Num(2)), ("a", Num(1))];
    assert OwnKeys(Obj(fs)) == ["a", "b"];
    assert OwnKeys(Obj(gs)) == ["b", "a"];
    assert multiset(fs) == multiset(gs);
    KeyOrderIgnored(fs, gs);
    var hs := [("a", Num(1)), ("b", Num(2))];
    assert OwnKeys(Obj([("a", Num(1))])) == ["a"];
    assert OwnKeys(Obj(hs)) == ["a", "b"];
    MissingKeyUnequal(Obj([("a", Num(1))]), Obj(hs), "b");
  }
}

=== FILE: deploy_js.dfy ===
/** `cDClient.deployCommands` of index.js: classify the folder, diff the
    global commands against the remote list, send the deletes, the creates and
    one PUT inside a single `try`, then post each guild-scoped command to each
    of its guilds, catching every guild failure on its own. A `TypeError` from
    reading a property of `null` anywhere inside the outer `try` is caught like
    a failed request. */
module DeployJs {
  import opened Results
  import opened Seqs
  import opened Json
  import opened Routes
  import opened Loader
  import opened Differ
  import opened Requests

  /** The log options that change what is sent. `noLogs` switches every log
      off (index.js:35-40); a switch left out takes its default, on
      (index.js:41). `None` is a switch left out. */
  datatype LogOptions = LogOptions(noLogs: bool, created: Option<bool>, updated: Option<bool>)

  /** Whether each created command's `name` is logged (index.js:150). */
  predicate LogsCreated(o: LogOptions)
  {
    !o.noLogs && o.created != Some(false)
  }

  /** Whether each updated command's `name` is logged (index.js:158-161 and
      198-201). */
  predicate LogsUpdated(o: LogOptions)
  {
    !o.noLogs && o.updated != Some(false)
  }

  /** One DELETE per stale remote record, at `/applications/{appId}/commands/{id}`,
      where `{id}` is the template-literal text of the record's `id`. */
  function DeleteRequests(appId: string, stale: seq<Value>): (rs: seq<Request>)
    ensures |rs| == |stale|
    ensures forall i :: 0 <= i < |stale| ==>
              rs[i] == Delete(Path(Command(appId, Interpolate(Property(stale[i], "id")))))
  {
    seq(|stale|, i requires 0 <= i < |stale| => Delete(Path(Command(appId, Interpolate(Property(stale[i], "id"))))))
  }

  /** The DELETE for a stale record names the record's `id` as the template
      literal prints it: a string id as it is, a number in decimal, and a
      record without an `id` the command `undefined`. A slash-free string id
      parses back as the single-command route. */
  lemma DeleteTargetsRecordId(appId: string, stale: seq<Value>)
    ensures forall i :: 0 <= i < |stale| && Property(stale[i], "id").None? ==>
              DeleteRequests(appId, stale)[i] == Delete(Path(Command(appId, "undefined")))
    ensures forall i, s :: 0 <= i < |stale| && Property(stale[i], "id") == Some(Str(s)) ==>
              DeleteRequests(appId, stale)[i] == Delete(Path(Command(appId, s)))
    ensures forall i, n: nat :: 0 <= i < |stale| && Property(stale[i], "id") == Some(Num(n)) ==>
              DeleteRequests(appId, stale)[i] == Delete(Path(Command(appId, NatToString(n))))
    ensures forall i, s :: 0 <= i < |stale| && Property(stale[i], "id") == Some(Str(s)) && '/' !in appId && '/' !in s ==>
              Parse(DeleteRequests(appId, stale)[i].path) == Some(Command(appId, s))
  {
    forall i, s | 0 <= i < |stale| && Property(stale[i], "id") == Some(Str(s)) && '/' !in appId && '/' !in s
      ensures Parse(DeleteRequests(appId, stale)[i].path) == Some(Command(appId, s))
    {
      ParsePath(Command(appId, s));
    }
  }

  /** As written, `toDelete` holds `Collection` entries, and an entry has no
      `id`: every DELETE goes to the command named `undefined`. */
  lemma EntriesDeleteUndefined(appId: string, registered: seq<(string, Value)>)
    ensures forall i :: 0 <= i < |registered| ==>
              DeleteRequests(appId, CollectionEntries(registered))[i] == Delete(Path(Command(appId, "undefined")))
  {
    forall i | 0 <= i < |registered|
      ensures DeleteRequests(appId, CollectionEntries(registered))[i] == Delete(Path(Command(appId, "undefined")))
    {
      EntryHasNoName(registered[i].0, registered[i].1);
    }
  }

  /** One POST per new command, its data as the body. */
  function CreateRequests(appId: string, created: seq<Value>): (rs: seq<Request>)
    ensures |rs| == |created|
    ensures forall i :: 0 <= i < |created| ==> rs[i] == Post(Path(Commands(appId)), created[i])
  {
    seq(|created|, i requires 0 <= i < |created| => Post(Path(Commands(appId)), created[i]))
  }

  /** Every POST of a new command goes to the application's global command
      collection and carries that command, in order. */
  lemma CreatesTargetCollection(appId: string, created: seq<Value>)
    requires '/' !in appId
    ensures forall i :: 0 <= i < |created| ==>
              Parse(CreateRequests(appId, created)[i].path) == Some(Commands(appId)) &&
              CreateRequests(appId, created)[i].body == created[i]
  {
    ParsePath(Commands(appId));
  }

  /** The global requests of index.js:137-157 in the order they are sent:
      every DELETE, then every POST, then exactly one PUT whose body is the
      array of updated commands. */
  function GlobalRequests(appId: string, plan: Plan): (rs: seq<Request>)
    ensures |rs| == |plan.toDelete| + |plan.toCreate| + 1
    ensures forall i :: 0 <= i < |rs| ==> (rs[i].Delete? <==> i < |plan.toDelete|)
    ensures forall i :: 0 <= i < |rs| ==> (rs[i].Post? <==> |plan.toDelete| <= i < |rs| - 1)
    ensures forall i :: 0 <= i < |rs| ==> (rs[i].Put? <==> i == |rs| - 1)
    ensures rs[|rs| - 1] == Put(Path(Commands(appId)), Arr(plan.toUpdate))
  {
    DeleteRequests(appId, plan.toDelete) + CreateRequests(appId, plan.toCreate)
      + [Put(Path(Commands(appId)), Arr(plan.toUpdate))]
  }

  /** How many global requests are sent before a property read of `null`
      throws: index.js:139 reads `id` of each record before its DELETE, and
      with `created` logging index.js:150 reads `name` of each new command
      after its POST. All of them when neither list holds `null`; the logging
      of updated names never throws (`Differ.UpdatedNeverNull`). */
  function GlobalCut(plan: Plan, logsCreated: bool): (cut: nat)
    ensures cut <= |plan.toDelete| + |plan.toCreate| + 1
    ensures cut == |plan.toDelete| + |plan.toCreate| + 1 <==>
              NullFree(plan.toDelete) && (logsCreated ==> NullFree(plan.toCreate))
    ensures cut < |plan.toDelete| ==> plan.toDelete[cut].Null? && NullFree(plan.toDelete[..cut])
    ensures |plan.toDelete| <= cut < |plan.toDelete| + |plan.toCreate| + 1 ==>
              && NullFree(plan.toDelete) && logsCreated && cut > |plan.toDelete|
              && plan.toCreate[cut - |plan.toDelete| - 1].Null?
              && NullFree(plan.toCreate[..cut - |plan.toDelete| - 1])
  {
    var d := FirstIndex(plan.toDelete, Null);
    var c := FirstIndex(plan.toCreate, Null);
    if d.Some? then d.value
    else if logsCreated && c.Some? then |plan.toDelete| + c.value + 1
    else |plan.toDelete| + |plan.toCreate| + 1
  }

  /** What the global phase sent, and whether it got past the PUT. */
  datatype GlobalRun = GlobalRun(issued: seq<Request>, completed: bool)

  /** The global phase of index.js:105-161: the diff, then the requests up to
      the first failure or the first property read of `null`. */
  function GlobalPhase(commands: seq<Value>, remote: seq<Value>, appId: string, logsCreated: bool,
                       outcomes: seq<bool>): (g: GlobalRun)
    ensures Diff(commands, remote).Err? ==> g == GlobalRun([], false)
    ensures Diff(commands, remote).Ok? ==> g.issued <= GlobalRequests(appId, Diff(commands, remote).value)
    ensures Diff(commands, remote).Ok? ==>
              (g.completed <==>
                 var plan := Diff(commands, remote).value;
                 && g.issued == GlobalRequests(appId, plan)
                 && (forall j :: 0 <= j < |g.issued| ==> Succeeds(outcomes, j))
                 && NullFree(plan.toDelete) && (logsCreated ==> NullFree(plan.toCreate)))
    ensures forall j :: 0 <= j < |g.issued| - 1 ==> Succeeds(outcomes, j)
  {
    match Diff(commands, remote)
    case Err(_) => GlobalRun([], false)
    case Ok(plan) =>
      var planned := GlobalRequests(appId, plan);
      var cut := GlobalCut(plan, logsCreated);
      ExecuteUpTo(planned, cut, outcomes);
      var run := Execute(planned[..cut], outcomes, 0);
      GlobalRun(run.issued, run.ok && cut == |planned|)
  }

  /** Running the first `cut` requests of a plan sends a prefix of the plan;
      the whole plan goes out and succeeds exactly when the cut is the whole
      plan and the run succeeds. */
  lemma ExecuteUpTo(planned: seq<Request>, cut: nat, outcomes: seq<bool>)
    requires cut <= |planned|
    ensures var run := Execute(planned[..cut], outcomes, 0);
      && run.issued <= planned
      && (forall j :: 0 <= j < |run.issued| - 1 ==> Succeeds(outcomes, j))
      && (run.ok && cut == |planned| <==>
            run.issued == planned && forall j :: 0 <= j < |run.issued| ==> Succeeds(outcomes, j))
  {
    var run := Execute(planned[..cut], outcomes, 0);
    assert planned[..cut][..|run.issued|] == planned[..|run.issued|];
    if run.issued == planned {
      assert |planned| <= cut;
      assert planned[..cut] == planned;
    }
    if cut == |planned| {
      assert planned[..cut] == planned;
    }
  }

  /** The guild test of index.js:186-190: with `clientGuilds` an array, a POST
      is sent only for a guild id found in it. */
  function Reachable(clientGuilds: seq<string>): Target -> bool
  {
    (t: Target) => t.1 in clientGuilds
  }

  /** No pair carries `null` data. */
  predicate PairsNullFree(pairs: seq<Target>)
  {
    forall i :: 0 <= i < |pairs| ==> !pairs[i].0.Null?
  }

  /** What the guild loop sends, how many of its POSTs were counted, and
      whether a property read of `null` ended it. */
  datatype GuildRun = GuildRun(issued: seq<Request>, successes: nat, threw: bool)

  /** The guild loop of index.js:184-214 over the command-guild pairs, the
      first POST at position `start` of the oracle. A guild id outside
      `clientGuilds` is skipped with a warning; a failing POST is caught and
      the loop goes on. The warning (index.js:210), the catch handler
      (index.js:205) and the `updated` log line (index.js:200) read `name` of
      the command's data, so for `null` data each of them throws out of the
      loop. */
  function GuildLoop(pairs: seq<Target>, appId: string, clientGuilds: seq<string>, logsUpdated: bool,
                     outcomes: seq<bool>, start: nat): (r: GuildRun)
    ensures r.issued <= GuildPosts(appId, Filter(pairs, Reachable(clientGuilds)))
    ensures !r.threw ==> r.issued == GuildPosts(appId, Filter(pairs, Reachable(clientGuilds)))
    ensures !r.threw ==> r.successes == SuccessCount(outcomes, start, |r.issued|)
    ensures r.threw ==> !PairsNullFree(pairs)
    ensures r.successes <= |r.issued| <= |pairs|
  {
    GuildStepsPosts(pairs, appId, clientGuilds, logsUpdated, outcomes, start);
    GuildStepsCount(pairs, appId, clientGuilds, logsUpdated, outcomes, start);
    GuildStepsThrow(pairs, appId, clientGuilds, logsUpdated, outcomes, start);
    GuildSteps(pairs, appId, clientGuilds, logsUpdated, outcomes, start)
  }

  /** The iterations of the guild loop, one pair after the other. */
  function GuildSteps(pairs: seq<Target>, appId: string, clientGuilds: seq<string>, logsUpdated: bool,
                      outcomes: seq<bool>, start: nat): GuildRun
    decreases |pairs|
  {
    if pairs == [] then GuildRun([], 0, false)
    else
      var data := pairs[0].0;
      if pairs[0].1 !in clientGuilds then
        if data.Null? then GuildRun([], 0, true)
        else GuildSteps(pairs[1..], appId, clientGuilds, logsUpdated, outcomes, start)
      else
        var ok := Succeeds(outcomes, start);
        if data.Null? && (logsUpdated || !ok) then GuildRun([GuildPost(appId, pairs[0])], 0, true)
        else
          var rest := GuildSteps(pairs[1..], appId, clientGuilds, logsUpdated, outcomes, start + 1);
          GuildRun([GuildPost(appId, pairs[0])] + rest.issued, (if ok then 1 else 0) + rest.successes, rest.threw)
  }

  lemma {:induction false} GuildStepsPosts(pairs: seq<Target>, appId: string, clientGuilds: seq<string>,
                                           logsUpdated: bool, outcomes: seq<bool>, start: nat)
    ensures var r := GuildSteps(pairs, appId, clientGuilds, logsUpdated, outcomes, start);
      && r.issued <= GuildPosts(appId, Filter(pairs, Reachable(clientGuilds)))
      && (!r.threw ==> r.issued == GuildPosts(appId, Filter(pairs, Reachable(clientGuilds))))
      && |r.issued| <= |pairs|
    decreases |pairs|
  {
    if pairs != [] {
      ReachableStep(pairs, appId, clientGuilds);
      if pairs[0].1 !in clientGuilds {
        GuildStepsPosts(pairs[1..], appId, clientGuilds, logsUpdated, outcomes, start);
      } else {
        GuildStepsPosts(pairs[1..], appId, clientGuilds, logsUpdated, outcomes, start + 1);
      }
    }
  }

  lemma {:induction false} GuildStepsCount(pairs: seq<Target>, appId: string, clientGuilds: seq<string>,
                                           logsUpdated: bool, outcomes: seq<bool>, start: nat)
    ensures var r := GuildSteps(pairs, appId, clientGuilds, logsUpdated, outcomes, start);
      && (!r.threw ==> r.successes == SuccessCount(outcomes, start, |r.issued|))
      && r.successes <= |r.issued|
    decreases |pairs|
  {
    if pairs != [] {
      if pairs[0].1 !in clientGuilds {
        GuildStepsCount(pairs[1..], appId, clientGuilds, logsUpdated, outcomes, start);
      } else {
        GuildStepsCount(pairs[1..], appId, clientGuilds, logsUpdated, outcomes, start + 1);
      }
    }
  }

  lemma {:induction false} GuildStepsThrow(pairs: seq<Target>, appId: string, clientGuilds: seq<string>,
                                           logsUpdated: bool, outcomes: seq<bool>, start: nat)
    ensures GuildSteps(pairs, appId, clientGuilds, logsUpdated, outcomes, start).threw ==> !PairsNullFree(pairs)
    decreases |pairs|
  {
    if pairs != [] {
      NullFreeTail(pairs);
      if pairs[0].1 !in clientGuilds {
        GuildStepsThrow(pairs[1..], appId, clientGuilds, logsUpdated, outcomes, start);
      } else {
        GuildStepsThrow(pairs[1..], appId, clientGuilds, logsUpdated, outcomes, start + 1);
      }
    }
  }

  /** The pairs after the first are null-free when all of them are. */
  lemma NullFreeTail(pairs: seq<Target>)
    requires pairs != []
    ensures PairsNullFree(pairs) ==> PairsNullFree(pairs[1..])
  {
    if PairsNullFree(pairs) {
      forall i | 0 <= i < |pairs[1..]| ensures !pairs[1..][i].0.Null? {
        assert pairs[1..][i] == pairs[i + 1];
      }
    }
  }

  /** The posts for the reachable pairs, unfolded by one pair. */
  lemma ReachableStep(pairs: seq<Target>, appId: string, clientGuilds: seq<string>)
    requires pairs != []
    ensures pairs[0].1 !in clientGuilds ==>
              Filter(pairs, Reachable(clientGuilds)) == Filter(pairs[1..], Reachable(clientGuilds))
    ensures pairs[0].1 in clientGuilds ==>
              GuildPosts(appId, Filter(pairs, Reachable(clientGuilds)))
                == [GuildPost(appId, pairs[0])] + GuildPosts(appId, Filter(pairs[1..], Reachable(clientGuilds)))
  {
    if pairs[0].1 in clientGuilds {
      var kept := Filter(pairs, Reachable(clientGuilds));
      assert kept[0] == pairs[0] && kept[1..] == Filter(pairs[1..], Reachable(clientGuilds));
    }
  }

  /** Over pairs without `null` data the loop never throws, so the pairs
      after them continue where they ended: with the next outcome, adding
      their posts and successes. */
  lemma {:induction false} GuildStepsAppend(pre: seq<Target>, post: seq<Target>, appId: string,
                                            clientGuilds: seq<string>, logsUpdated: bool, outcomes: seq<bool>,
                                            start: nat)
    requires PairsNullFree(pre)
    ensures var a := GuildSteps(pre, appId, clientGuilds, logsUpdated, outcomes, start);
      var b := GuildSteps(post, appId, clientGuilds, logsUpdated, outcomes, start + |a.issued|);
      && !a.threw
      && GuildSteps(pre + post, appId, clientGuilds, logsUpdated, outcomes, start)
           == GuildRun(a.issued + b.issued, a.successes + b.successes, b.threw)
    decreases |pre|
  {
    if pre == [] {
      assert pre + post == post;
    } else {
      NullFreeTail(pre);
      assert !pre[0].0.Null?;
      assert (pre + post)[0] == pre[0] && (pre + post)[1..] == pre[1..] + post;
      if pre[0].1 !in clientGuilds {
        GuildStepsAppend(pre[1..], post, appId, clientGuilds, logsUpdated, outcomes, start);
      } else {
        GuildStepsAppend(pre[1..], post, appId, clientGuilds, logsUpdated, outcomes, start + 1);
        var a := GuildSteps(pre[1..], appId, clientGuilds, logsUpdated, outcomes, start + 1);
        var b := GuildSteps(post, appId, clientGuilds, logsUpdated, outcomes, start + 1 + |a.issued|);
        assert [GuildPost(appId, pre[0])] + (a.issued + b.issued) == ([GuildPost(appId, pre[0])] + a.issued) + b.issued;
      }
    }
  }

  /** The first pair with `null` data stops the guild loop at that pair, after
      the POSTs of the reachable pairs before it: at the warning when its guild
      is unknown, right after its own POST when that POST fails or `updated`
      logging is on. Nothing after it is sent, and `updatedPrivates` counts
      the successes before it. */
  lemma NullGuildDataStops(pre: seq<Target>, g: string, rest: seq<Target>, appId: string,
                           clientGuilds: seq<string>, logsUpdated: bool, outcomes: seq<bool>, start: nat)
    requires PairsNullFree(pre)
    ensures var sent := GuildPosts(appId, Filter(pre, Reachable(clientGuilds)));
      g !in clientGuilds ==>
        GuildLoop(pre + [(Null, g)] + rest, appId, clientGuilds, logsUpdated, outcomes, start)
          == GuildRun(sent, SuccessCount(outcomes, start, |sent|), true)
    ensures var sent := GuildPosts(appId, Filter(pre, Reachable(clientGuilds)));
      g in clientGuilds && (logsUpdated || !Succeeds(outcomes, start + |sent|)) ==>
        GuildLoop(pre + [(Null, g)] + rest, appId, clientGuilds, logsUpdated, outcomes, start)
          == GuildRun(sent + [Post(Path(GuildCommands(appId, g)), Null)], SuccessCount(outcomes, start, |sent|), true)
  {
    var tail := [(Null, g)] + rest;
    assert pre + [(Null, g)] + rest == pre + tail;
    assert tail[0] == (Null, g);
    GuildStepsAppend(pre, tail, appId, clientGuilds, logsUpdated, outcomes, start);
    GuildStepsPosts(pre, appId, clientGuilds, logsUpdated, outcomes, start);
    GuildStepsCount(pre, appId, clientGuilds, logsUpdated, outcomes, start);
  }

  /** Loading a file whose export is not an object rejects the returned
      promise: `"data" in command` throws before the `try` of index.js:88. */
  datatype LoadError = ExportNotAnObject

  /** The requests sent, whether the outer `catch` of index.js:220-222 ran,
      and the value of `updatedPrivates` when the method ended. */
  datatype JsRun = JsRun(issued: seq<Request>, caught: bool, updatedPrivates: nat)

  /** The global requests for a classified folder when no callback of the
      diff throws. */
  function GlobalPlan(c: Classified, remote: seq<Value>, appId: string): seq<Request>
  {
    GlobalRequests(appId, Lists(c.commands, remote))
  }

  /** No guild-scoped command has `null` data. */
  predicate PrivatesNullFree(privates: seq<GuildScoped>)
  {
    forall i :: 0 <= i < |privates| ==> !privates[i].data.Null?
  }

  /** `deployCommands` from the loaded folder on, for a logged-in client with
      application id `appId`, the remote global commands `remote`, the guild
      ids `clientGuilds`, the log options `logs` and the outcome oracle
      `outcomes`. */
  function DeployJs(files: seq<CommandFile>, remote: seq<Value>, appId: string,
                    clientGuilds: seq<string>, logs: LogOptions, outcomes: seq<bool>): (r: Result<JsRun, LoadError>)
    ensures r.Err? <==> exists i :: 0 <= i < |files| && Throws(files[i], JsRules)
    ensures r.Ok? ==>
              var c := Classify(files, JsRules).value;
              var g := GlobalPhase(c.commands, remote, appId, LogsCreated(logs), outcomes);
              && g.issued <= r.value.issued
              && (!g.completed ==> r.value == JsRun(g.issued, true, 0))
              && (r.value.caught ==> !g.completed || !PrivatesNullFree(c.privates))
    ensures r.Ok? ==> r.value.updatedPrivates <= |r.value.issued|
  {
    match Classify(files, JsRules)
    case None => Err(ExportNotAnObject)
    case Some(c) =>
      var g := GlobalPhase(c.commands, remote, appId, LogsCreated(logs), outcomes);
      if !g.completed then Ok(JsRun(g.issued, true, 0))
      else if |c.privates| == 0 then Ok(JsRun(g.issued, false, 0))
      else
        var guilds := GuildLoop(Pairs(c.privates), appId, clientGuilds, LogsUpdated(logs), outcomes, |g.issued|);
        PairsFromNullFree(c.privates);
        Ok(JsRun(g.issued + guilds.issued, guilds.threw, guilds.successes))
  }

  /** Null-free guild-scoped commands give null-free pairs. */
  lemma PairsFromNullFree(privates: seq<GuildScoped>)
    ensures PrivatesNullFree(privates) ==> PairsNullFree(Pairs(privates))
  {
    if PrivatesNullFree(privates) {
      var pairs := Pairs(privates);
      PairsMembership(privates);
      forall i | 0 <= i < |pairs| ensures !pairs[i].0.Null? {
        assert pairs[i] in pairs;
      }
    }
  }

  /** A null-free sequence stays null-free under a filter. */
  lemma FilterNullFree(vs: seq<Value>, keep: Value -> bool)
    requires NullFree(vs)
    ensures NullFree(Filter(vs, keep))
  {
    var r := Filter(vs, keep);
    forall i | 0 <= i < |r| ensures !r[i].Null? {
      assert r[i] in r;
    }
  }

  /** Without `null` among the global commands and the remote records, the
      global phase is the plain plan: no callback of the diff throws and no
      property read of the send loops meets `null`. */
  lemma GlobalNoThrow(commands: seq<Value>, remote: seq<Value>, appId: string, logsCreated: bool)
    requires NullFree(commands) && NullFree(remote)
    ensures Diff(commands, remote) == Ok(Lists(commands, remote))
    ensures GlobalCut(Lists(commands, remote), logsCreated) == |GlobalRequests(appId, Lists(commands, remote))|
  {
    NoNullNoThrow(commands, remote);
    FilterNullFree(remote, IsStale(commands));
    FilterNullFree(commands, IsNew(remote));
  }

  /** Without `null` and with every global request succeeding, the global
      phase sends the whole plan and gets past the PUT. */
  lemma GlobalPhaseCompletes(commands: seq<Value>, remote: seq<Value>, appId: string, logsCreated: bool,
                             outcomes: seq<bool>)
    requires NullFree(commands) && NullFree(remote)
    requires forall j :: 0 <= j < |GlobalRequests(appId, Lists(commands, remote))| ==> Succeeds(outcomes, j)
    ensures GlobalPhase(commands, remote, appId, logsCreated, outcomes) ==
              GlobalRun(GlobalRequests(appId, Lists(commands, remote)), true)
  {
    GlobalNoThrow(commands, remote, appId, logsCreated);
    var planned := GlobalRequests(appId, Lists(commands, remote));
    assert planned[..|planned|] == planned;
  }

  /** A failing global request before the cut is the last one sent. */
  lemma GlobalPhaseAborts(commands: seq<Value>, remote: seq<Value>, appId: string, logsCreated: bool,
                          outcomes: seq<bool>, k: nat)
    requires Diff(commands, remote).Ok?
    requires k < GlobalCut(Diff(commands, remote).value, logsCreated)
    requires !Succeeds(outcomes, k)
    requires forall j :: 0 <= j < k ==> Succeeds(outcomes, j)
    ensures GlobalPhase(commands, remote, appId, logsCreated, outcomes) ==
              GlobalRun(GlobalRequests(appId, Diff(commands, remote).value)[..k + 1], false)
  {
    var plan := Diff(commands, remote).value;
    ExecuteStopsAt(GlobalRequests(appId, plan), GlobalCut(plan, logsCreated), outcomes, k);
  }

  /** A failure at position `k` before the cut ends the run right after it. */
  lemma ExecuteStopsAt(planned: seq<Request>, cut: nat, outcomes: seq<bool>, k: nat)
    requires k < cut <= |planned|
    requires !Succeeds(outcomes, k)
    requires forall j :: 0 <= j < k ==> Succeeds(outcomes, j)
    ensures Execute(planned[..cut], outcomes, 0) == Run(planned[..k + 1], false)
  {
    var run := Execute(planned[..cut], outcomes, 0);
    assert !run.ok;
    assert |run.issued| == k + 1;
    assert planned[..cut][..k + 1] == planned[..k + 1];
  }

  /** A property read of `null` ends the global phase after the requests
      before the cut. */
  lemma GlobalPhaseNullRead(commands: seq<Value>, remote: seq<Value>, appId: string, logsCreated: bool,
                            outcomes: seq<bool>)
    requires Diff(commands, remote).Ok?
    requires GlobalCut(Diff(commands, remote).value, logsCreated) < |GlobalRequests(appId, Diff(commands, remote).value)|
    requires forall j :: 0 <= j < GlobalCut(Diff(commands, remote).value, logsCreated) ==> Succeeds(outcomes, j)
    ensures var plan := Diff(commands, remote).value;
      GlobalPhase(commands, remote, appId, logsCreated, outcomes) ==
        GlobalRun(GlobalRequests(appId, plan)[..GlobalCut(plan, logsCreated)], false)
  {
    var plan := Diff(commands, remote).value;
    var planned := GlobalRequests(appId, plan);
    var cut := GlobalCut(plan, logsCreated);
    var run := Execute(planned[..cut], outcomes, 0);
    assert run.ok;
    assert run.issued == planned[..cut];
  }

  /** Two oracles that agree on the global requests give the same global
      phase. */
  lemma GlobalPhaseAgrees(commands: seq<Value>, remote: seq<Value>, appId: string, logsCreated: bool,
                          o1: seq<bool>, o2: seq<bool>)
    requires Diff(commands, remote).Ok? ==>
               forall j :: 0 <= j < |GlobalRequests(appId, Diff(commands, remote).value)| ==> Succeeds(o1, j) == Succeeds(o2, j)
    ensures GlobalPhase(commands, remote, appId, logsCreated, o1) == GlobalPhase(commands, remote, appId, logsCreated, o2)
  {
    if Diff(commands, remote).Ok? {
      var plan := Diff(commands, remote).value;
      var planned := GlobalRequests(appId, plan);
      var cut := GlobalCut(plan, logsCreated);
      ExecuteAgrees(planned[..cut], o1, o2, 0);
    }
  }

  /** When nothing is `null` and every global request succeeds, the whole
      trace is the deletes, the creates, the PUT, and then one guild POST per
      reachable pair in command-major order, and nothing is caught. */
  lemma JsTraceWhenGlobalSucceeds(files: seq<CommandFile>, remote: seq<Value>, appId: string,
                                  clientGuilds: seq<string>, logs: LogOptions, outcomes: seq<bool>)
    requires Classify(files, JsRules).Some?
    requires var c := Classify(files, JsRules).value;
      NullFree(c.commands) && NullFree(remote) && PrivatesNullFree(c.privates)
    requires var c := Classify(files, JsRules).value;
      forall j :: 0 <= j < |GlobalPlan(c, remote, appId)| ==> Succeeds(outcomes, j)
    ensures var c := Classify(files, JsRules).value;
      && DeployJs(files, remote, appId, clientGuilds, logs, outcomes).Ok?
      && DeployJs(files, remote, appId, clientGuilds, logs, outcomes).value.issued ==
           GlobalPlan(c, remote, appId) + GuildPosts(appId, Filter(Pairs(c.privates), Reachable(clientGuilds)))
      && !DeployJs(files, remote, appId, clientGuilds, logs, outcomes).value.caught
  {
    var c := Classify(files, JsRules).value;
    GlobalPhaseCompletes(c.commands, remote, appId, LogsCreated(logs), outcomes);
    var g := GlobalPhase(c.commands, remote, appId, LogsCreated(logs), outcomes);
    var pairs := Pairs(c.privates);
    PairsFromNullFree(c.privates);
    if |c.privates| == 0 {
      assert pairs == [];
    } else {
      var guilds := GuildLoop(pairs, appId, clientGuilds, LogsUpdated(logs), outcomes, |g.issued|);
      assert !guilds.threw;
      assert DeployJs(files, remote, appId, clientGuilds, logs, outcomes) ==
             Ok(JsRun(g.issued + guilds.issued, false, guilds.successes));
    }
  }

  /** The first failing global request before any property read of `null` is
      the last request sent, and the error is caught. */
  lemma JsAbortsAtFirstFailure(files: seq<CommandFile>, remote: seq<Value>, appId: string,
                               clientGuilds: seq<string>, logs: LogOptions, outcomes: seq<bool>, k: nat)
    requires Classify(files, JsRules).Some?
    requires Diff(Classify(files, JsRules).value.commands, remote).Ok?
    requires k < GlobalCut(Diff(Classify(files, JsRules).value.commands, remote).value, LogsCreated(logs))
    requires !Succeeds(outcomes, k)
    requires forall j :: 0 <= j < k ==> Succeeds(outcomes, j)
    ensures DeployJs(files, remote, appId, clientGuilds, logs, outcomes) ==
              Ok(JsRun(GlobalRequests(appId, Diff(Classify(files, JsRules).value.commands, remote).value)[..k + 1], true, 0))
  {
    GlobalPhaseAborts(Classify(files, JsRules).value.commands, remote, appId, LogsCreated(logs), outcomes, k);
  }

  /** A property read of `null` in the send loops ends the global phase: the
      requests before it are sent, and the `TypeError` is caught. */
  lemma JsNullReadAborts(files: seq<CommandFile>, remote: seq<Value>, appId: string,
                         clientGuilds: seq<string>, logs: LogOptions, outcomes: seq<bool>)
    requires Classify(files, JsRules).Some?
    requires Diff(Classify(files, JsRules).value.commands, remote).Ok?
    requires var plan := Diff(Classify(files, JsRules).value.commands, remote).value;
      GlobalCut(plan, LogsCreated(logs)) < |GlobalRequests(appId, plan)|
    requires var plan := Diff(Classify(files, JsRules).value.commands, remote).value;
      forall j :: 0 <= j < GlobalCut(plan, LogsCreated(logs)) ==> Succeeds(outcomes, j)
    ensures var plan := Diff(Classify(files, JsRules).value.commands, remote).value;
      DeployJs(files, remote, appId, clientGuilds, logs, outcomes) ==
        Ok(JsRun(GlobalRequests(appId, plan)[..GlobalCut(plan, LogsCreated(logs))], true, 0))
  {
    GlobalPhaseNullRead(Classify(files, JsRules).value.commands, remote, appId, LogsCreated(logs), outcomes);
  }

  /** Guild failures are isolated: when no guild-scoped command has `null`
      data, two runs whose oracles agree on the global requests send exactly
      the same requests, however their guild POSTs fare. */
  lemma JsGuildFailuresIsolated(files: seq<CommandFile>, remote: seq<Value>, appId: string,
                                clientGuilds: seq<string>, logs: LogOptions, o1: seq<bool>, o2: seq<bool>)
    requires Classify(files, JsRules).Some?
    requires PrivatesNullFree(Classify(files, JsRules).value.privates)
    requires var d := Diff(Classify(files, JsRules).value.commands, remote);
      d.Ok? ==> forall j :: 0 <= j < |GlobalRequests(appId, d.value)| ==> Succeeds(o1, j) == Succeeds(o2, j)
    ensures DeployJs(files, remote, appId, clientGuilds, logs, o1).value.issued ==
            DeployJs(files, remote, appId, clientGuilds, logs, o2).value.issued
  {
    var c := Classify(files, JsRules).value;
    GlobalPhaseAgrees(c.commands, remote, appId, LogsCreated(logs), o1, o2);
    PairsFromNullFree(c.privates);
  }

  /** The global phase reads the oracle only at the positions of its requests. */
  lemma {:induction false} ExecuteAgrees(planned: seq<Request>, o1: seq<bool>, o2: seq<bool>, start: nat)
    requires forall j :: start <= j < start + |planned| ==> Succeeds(o1, j) == Succeeds(o2, j)
    ensures Execute(planned, o1, start) == Execute(planned, o2, start)
    decreases |planned|
  {
    if planned != [] && Succeeds(o1, start) {
      ExecuteAgrees(planned[1..], o1, o2, start + 1);
      assert Execute(planned, o1, start).issued == [planned[0]] + Execute(planned[1..], o1, start + 1).issued;
      assert Execute(planned, o2, start).issued == [planned[0]] + Execute(planned[1..], o2, start + 1).issued;
    }
  }

  /** With the `clientGuilds` array empty, as it is after the early readiness
      check, no guild POST is ever sent: the trace is the global phase alone. */
  lemma JsNoGuildPostsWithoutClientGuilds(files: seq<CommandFile>, remote: seq<Value>, appId: string,
                                          logs: LogOptions, outcomes: seq<bool>)
    requires Classify(files, JsRules).Some?
    ensures DeployJs(files, remote, appId, [], logs, outcomes).value.issued ==
            GlobalPhase(Classify(files, JsRules).value.commands, remote, appId, LogsCreated(logs), outcomes).issued
    ensures DeployJs(files, remote, appId, [], logs, outcomes).value.updatedPrivates == 0
  {
    var c := Classify(files, JsRules).value;
    NothingReachable(Pairs(c.privates));
  }

  lemma {:induction false} NothingReachable(pairs: seq<Target>)
    ensures Filter(pairs, Reachable([])) == []
    decreases |pairs|
  {
    if pairs != [] {
      NothingReachable(pairs[1..]);
    }
  }

  /** `updatedPrivates` counts successful guild POSTs, so it never exceeds
      the number of command-guild pairs. */
  lemma JsUpdatedPrivatesBound(files: seq<CommandFile>, remote: seq<Value>, appId: string,
                               clientGuilds: seq<string>, logs: LogOptions, outcomes: seq<bool>)
    requires Classify(files, JsRules).Some?
    ensures DeployJs(files, remote, appId, clientGuilds, logs, outcomes).value.updatedPrivates
              <= |Pairs(Classify(files, JsRules).value.privates)|
  {
  }

  /** A command module whose `data` is `null`. */
  const NullDataFile := CommandFile("a.js", Some(Module(true, Null, true, Null, [])))

  lemma NullDataClassified()
    ensures Classify([NullDataFile], JsRules) == Some(Classified([Null], []))
  {
    assert "a.js"[|"a.js"| - |".js"|..] == ".js";
    assert IsCommandFile(NullDataFile);
    assert FileContribution(NullDataFile, JsRules) == Some(Classified([Null], []));
    assert [NullDataFile][1..] == [];
    assert Classify([], JsRules) == Some(Empty());
    assert [Null] + [] == [Null];
  }

  /** `null` data against one registered command: the first `some` callback
      reads `name` of `null`, so nothing is sent and the error is caught. */
  lemma JsNullDataAgainstRegistered(appId: string, clientGuilds: seq<string>, logs: LogOptions, outcomes: seq<bool>)
    ensures DeployJs([NullDataFile], [Obj([("name", Str("x")), ("id", Str("1"))])], appId, clientGuilds, logs, outcomes)
              == Ok(JsRun([], true, 0))
  {
    NullDataClassified();
    NullCommandThrows([Null], [Obj([("name", Str("x")), ("id", Str("1"))])], 0);
  }

  /** `null` data with nothing registered is created: its POST is sent, and
      then logging its `name` throws unless logging is off, in which case the
      PUT follows. */
  lemma JsNullDataCreated(appId: string, clientGuilds: seq<string>)
    ensures DeployJs([NullDataFile], [], appId, clientGuilds, LogOptions(false, None, None), [])
              == Ok(JsRun([Post(Path(Commands(appId)), Null)], true, 0))
    ensures DeployJs([NullDataFile], [], appId, clientGuilds, LogOptions(true, None, None), [])
              == Ok(JsRun([Post(Path(Commands(appId)), Null), Put(Path(Commands(appId)), Arr([]))], false, 0))
  {
    NullDataClassified();
    NullCreatedPhase(appId, true);
    NullCreatedPhase(appId, false);
  }

  /** The global phase for a single `null` command and nothing registered. */
  lemma NullCreatedPhase(appId: string, logsCreated: bool)
    ensures GlobalPhase([Null], [], appId, logsCreated, []) ==
              if logsCreated then GlobalRun([Post(Path(Commands(appId)), Null)], false)
              else GlobalRun([Post(Path(Commands(appId)), Null), Put(Path(Commands(appId)), Arr([]))], true)
  {
    NothingRegisteredCreatesAll([Null]);
    var plan := Plan([Null], [], []);
    var planned := GlobalRequests(appId, plan);
    assert planned == [Post(Path(Commands(appId)), Null), Put(Path(Commands(appId)), Arr([]))];
    var cut := GlobalCut(plan, logsCreated);
    assert FirstIndex(plan.toCreate, Null) == Some(0);
    assert cut == if logsCreated then 1 else 2;
    if logsCreated {
      assert planned[..cut] == [Post(Path(Commands(appId)), Null)];
    } else {
      assert planned[..cut] == planned;
    }
  }
}

=== FILE: deploy_ts.dfy ===
/** `deployCommands` and `deleteCommand` of index.ts: one bulk PUT of every
    global command followed by the guild POSTs, all inside one `try` whose
    `catch` turns any failure into `false`; and the deletion of one command by
    its numeric id. */
module DeployTs {
  import opened Results
  import opened Seqs
  import opened Json
  import opened Routes
  import opened Loader
  import opened Requests

  /** `!opts.appToken || !opts.appId`: an option that is absent or empty. */
  predicate Missing(credential: Option<string>)
  {
    credential.None? || credential.value == ""
  }

  /** The `Error` thrown at index.ts:35-37. */
  datatype DeployError = MissingCredentials

  /** The requests sent and the boolean the promise resolves to. */
  datatype TsRun = TsRun(issued: seq<Request>, result: bool)

  /** The requests `deployCommands` plans for a classified folder: the PUT of
      the whole global array, then one POST per command-guild pair. */
  function TsPlan(appId: string, c: Classified): (rs: seq<Request>)
    ensures |rs| == 1 + |Pairs(c.privates)|
    ensures rs[0] == Put(Path(Commands(appId)), Arr(c.commands))
    ensures forall i :: 1 <= i < |rs| ==> rs[i] == GuildPost(appId, Pairs(c.privates)[i - 1])
  {
    [Put(Path(Commands(appId)), Arr(c.commands))] + GuildPosts(appId, Pairs(c.privates))
  }

  /** `deployCommands(folderPath, opts)` of index.ts with `opts.logs` given
      by `logs` and the oracle `outcomes`. */
  function DeployTs(appToken: Option<string>, appId: Option<string>, logs: bool, files: seq<CommandFile>,
                    outcomes: seq<bool>): (r: Result<TsRun, DeployError>)
    ensures r.Err? <==> Missing(appToken) || Missing(appId)
    ensures r.Ok? && (exists i :: 0 <= i < |files| && Throws(files[i], TsRules(logs))) ==> r.value == TsRun([], false)
    ensures r.Ok? && Classify(files, TsRules(logs)).Some? ==>
              var planned := TsPlan(appId.value, Classify(files, TsRules(logs)).value);
              && 1 <= |r.value.issued| <= |planned|
              && r.value.issued == planned[..|r.value.issued|]
              && (r.value.result <==> forall j :: 0 <= j < |planned| ==> Succeeds(outcomes, j))
              && (r.value.result ==> r.value.issued == planned)
              && (!r.value.result ==> !Succeeds(outcomes, |r.value.issued| - 1))
              && (forall j :: 0 <= j < |r.value.issued| - 1 ==> Succeeds(outcomes, j))
  {
    if Missing(appToken) || Missing(appId) then Err(MissingCredentials)
    else match Classify(files, TsRules(logs))
      case None => Ok(TsRun([], false))
      case Some(c) =>
        var run := Execute(TsPlan(appId.value, c), outcomes, 0);
        Ok(TsRun(run.issued, run.ok))
  }

  /** Even with no global command at all, the PUT is sent, with an empty
      array: the global set is overwritten on every call. */
  lemma TsAlwaysPuts(appToken: Option<string>, appId: Option<string>, logs: bool, files: seq<CommandFile>,
                     outcomes: seq<bool>)
    requires !Missing(appToken) && !Missing(appId)
    requires Classify(files, TsRules(logs)).Some?
    ensures DeployTs(appToken, appId, logs, files, outcomes).value.issued[0] ==
              Put(Path(Commands(appId.value)), Arr(Classify(files, TsRules(logs)).value.commands))
  {
  }

  /** Unlike index.js, any failing request ends the run: a failing PUT sends
      no guild POST, a failing guild POST no later one, and the result is
      `false`. */
  lemma TsFailureStops(appToken: Option<string>, appId: Option<string>, logs: bool, files: seq<CommandFile>,
                       outcomes: seq<bool>, k: nat)
    requires !Missing(appToken) && !Missing(appId)
    requires Classify(files, TsRules(logs)).Some?
    requires k < |TsPlan(appId.value, Classify(files, TsRules(logs)).value)|
    requires !Succeeds(outcomes, k)
    requires forall j :: 0 <= j < k ==> Succeeds(outcomes, j)
    ensures DeployTs(appToken, appId, logs, files, outcomes).value ==
              TsRun(TsPlan(appId.value, Classify(files, TsRules(logs)).value)[..k + 1], false)
  {
    var planned := TsPlan(appId.value, Classify(files, TsRules(logs)).value);
    var run := Execute(planned, outcomes, 0);
    assert |run.issued| == k + 1;
  }

  /** `/^\d+$/`: a non-empty string of ASCII digits. */
  predicate IsNumericId(s: string)
  {
    |s| > 0 && forall i :: 0 <= i < |s| ==> '0' <= s[i] <= '9'
  }

  /** The path `deleteCommand` targets: the command id appended to the guild
      collection when `guildId` is truthy, to the global collection otherwise. */
  function DeletePath(appId: string, commandId: string, guildId: Option<string>): (p: string)
    ensures guildId.Some? && guildId.value != "" ==> p == Path(GuildCommands(appId, guildId.value)) + "/" + commandId
    ensures guildId.None? || guildId.value == "" ==> p == Path(Commands(appId)) + "/" + commandId
  {
    RoutesNest(appId, if guildId.Some? then guildId.value else "", commandId);
    if guildId.Some? && guildId.value != "" then Path(GuildCommand(appId, guildId.value, commandId))
    else Path(Command(appId, commandId))
  }

  /** Why the promise returned by `deleteCommand` rejects. */
  datatype DeleteError = NotNumeric | RequestFailed

  /** The requests sent and the error the promise rejects with, if any. */
  datatype DeleteRun = DeleteRun(issued: seq<Request>, error: Option<DeleteError>)

  /** `deleteCommand(commandId, opts)` of index.ts, `succeeded` telling whether
      the DELETE succeeds. */
  function DeleteTs(commandId: string, appId: string, guildId: Option<string>, succeeded: bool): (r: DeleteRun)
    ensures |r.issued| <= 1
    ensures r.issued == [] <==> !IsNumericId(commandId)
    ensures r.issued == [] ==> r.error == Some(NotNumeric)
    ensures r.issued != [] ==> r.issued[0].Delete?
    ensures r.error.None? <==> IsNumericId(commandId) && succeeded
  {
    if IsNumericId(commandId) then
      DeleteRun([Delete(DeletePath(appId, commandId, guildId))], if succeeded then None else Some(RequestFailed))
    else DeleteRun([], Some(NotNumeric))
  }

  /** The id test on examples: a decimal numeral, with a leading zero or
      not, is sent as one DELETE; an empty id or a name is rejected with
      nothing sent. */
  lemma DeleteIdCheck(n: nat, appId: string, guildId: Option<string>, succeeded: bool)
    ensures DeleteTs(NatToString(n), appId, guildId, succeeded).issued == [Delete(DeletePath(appId, NatToString(n), guildId))]
    ensures DeleteTs("0" + NatToString(n), appId, guildId, succeeded).issued ==
              [Delete(DeletePath(appId, "0" + NatToString(n), guildId))]
    ensures DeleteTs("", appId, guildId, succeeded) == DeleteRun([], Some(NotNumeric))
    ensures DeleteTs("ping", appId, guildId, succeeded) == DeleteRun([], Some(NotNumeric))
  {
    var s := "0" + NatToString(n);
    assert forall i :: 1 <= i < |s| ==> s[i] == NatToString(n)[i - 1];
    assert "ping"[0] == 'p';
  }

  /** The DELETE names the route chosen by `guildId`: parsing its path gives
      back the guild command when `guildId` is truthy and the global command
      otherwise. */
  lemma DeleteTargetsChosenRoute(commandId: string, appId: string, guildId: Option<string>, succeeded: bool)
    requires IsNumericId(commandId)
    requires '/' !in appId
    requires guildId.Some? ==> '/' !in guildId.value
    ensures var path := DeleteTs(commandId, appId, guildId, succeeded).issued[0].path;
      if guildId.Some? && guildId.value != "" then Parse(path) == Some(GuildCommand(appId, guildId.value, commandId))
      else Parse(path) == Some(Command(appId, commandId))
  {
    assert '/' !in commandId;
    if guildId.Some? && guildId.value != "" {
      ParsePath(GuildCommand(appId, guildId.value, commandId));
    } else {
      ParsePath(Command(appId, commandId));
    }
  }
}

=== FILE: differ.dfy ===
/** The global diff of index.js (lines 105-129): which local commands to
    create, which to update, and which remote commands to delete, matching by
    `name`. */
module Differ {
  import opened Results
  import opened Seqs
  import opened Json
  import opened DeepEquality

  /** `v.name`, `None` standing for `undefined`. */
  function NameOf(v: Value): Option<Value>
  {
    Property(v, "name")
  }

  /** `undefined` or `null`. */
  predicate Nullish(o: Option<Value>)
  {
    o.None? || o.value.Null?
  }

  /** The loose comparison `a == b` on names: `null` and `undefined` are equal
      to each other; otherwise values are compared as they are. */
  predicate LooseEquals(a: Option<Value>, b: Option<Value>)
  {
    (Nullish(a) && Nullish(b)) || a == b
  }

  /** `currentCommands.some((c) => c.name == command.name)`. */
  predicate HasRemote(remote: seq<Value>, command: Value)
  {
    exists i :: 0 <= i < |remote| && LooseEquals(NameOf(remote[i]), NameOf(command))
  }

  /** `commands.some((c) => c.name == currentCommand.name)`. */
  predicate HasLocal(commands: seq<Value>, current: Value)
  {
    exists i :: 0 <= i < |commands| && LooseEquals(NameOf(commands[i]), NameOf(current))
  }

  /** The names of a list of records, in order. */
  function Names(records: seq<Value>): (ns: seq<Option<Value>>)
    ensures |ns| == |records|
    ensures forall i :: 0 <= i < |records| ==> ns[i] == NameOf(records[i])
  {
    seq(|records|, i requires 0 <= i < |records| => NameOf(records[i]))
  }

  /** `currentCommands.find((c) => c.name === name)`, as a position: the first
      remote record whose name is strictly equal, if any. */
  function FindByName(remote: seq<Value>, name: Option<Value>): (r: Option<nat>)
    ensures r.Some? ==> r.value < |remote| && NameOf(remote[r.value]) == name
    ensures r.Some? ==> forall j :: 0 <= j < r.value ==> NameOf(remote[j]) != name
    ensures r.None? <==> forall j :: 0 <= j < |remote| ==> NameOf(remote[j]) != name
  {
    var names := Names(remote);
    assert name in names <==> exists j :: 0 <= j < |remote| && NameOf(remote[j]) == name by {
      if name in names {
        var j :| 0 <= j < |names| && names[j] == name;
      }
    }
    FirstIndex(names, name)
  }

  /** The remote record found for `command` exists, is truthy, and is not
      `deepEqual` to the local data (index.js:117-121). */
  predicate NeedsUpdate(remote: seq<Value>, command: Value)
  {
    match FindByName(remote, NameOf(command))
    case None => false
    case Some(i) => Truthy(remote[i]) && !DeepEqual(command, remote[i])
  }

  /** What the callback `(c) => c.name == y.name` of `some` does with `c`:
      reading `name` of `null` throws. */
  function SomeStep(c: Value, y: Value): Step
  {
    if c.Null? || y.Null? then Throw
    else if LooseEquals(NameOf(c), NameOf(y)) then Hit
    else Miss
  }

  /** What the callback `(c) => c.name === y.name` of `find` does with `c`. */
  function FindStep(c: Value, y: Value): Step
  {
    if c.Null? || y.Null? then Throw
    else if NameOf(c) == NameOf(y) then Hit
    else Miss
  }

  function SomeSteps(xs: seq<Value>, y: Value): (steps: seq<Step>)
    ensures |steps| == |xs| && forall i :: 0 <= i < |xs| ==> steps[i] == SomeStep(xs[i], y)
  {
    seq(|xs|, i requires 0 <= i < |xs| => SomeStep(xs[i], y))
  }

  function FindSteps(xs: seq<Value>, y: Value): (steps: seq<Step>)
    ensures |steps| == |xs| && forall i :: 0 <= i < |xs| ==> steps[i] == FindStep(xs[i], y)
  {
    seq(|xs|, i requires 0 <= i < |xs| => FindStep(xs[i], y))
  }

  /** Some callback of `xs.some` throws before any callback returns `true`. */
  predicate SomeThrows(xs: seq<Value>, y: Value)
  {
    exists j :: 0 <= j < |xs| && SomeStep(xs[j], y) == Throw &&
      forall i :: 0 <= i < j ==> SomeStep(xs[i], y) == Miss
  }

  /** Some callback of `xs.find` throws before any callback returns `true`. */
  predicate FindThrows(xs: seq<Value>, y: Value)
  {
    exists j :: 0 <= j < |xs| && FindStep(xs[j], y) == Throw &&
      forall i :: 0 <= i < j ==> FindStep(xs[i], y) == Miss
  }

  /** `xs.some((c) => c.name == y.name)`: it throws when a callback reads
      `name` of `null` first, and otherwise tells whether some element has a
      loosely equal name. */
  function SomeName(xs: seq<Value>, y: Value): (r: Result<bool, TypeError>)
    ensures r.Err? <==> SomeThrows(xs, y)
    ensures r.Ok? ==> (r.value <==> exists i :: 0 <= i < |xs| && LooseEquals(NameOf(xs[i]), NameOf(y)))
  {
    var steps := SomeSteps(xs, y);
    match ScanSteps(steps)
    case Threw => Err(NullPropertyRead)
    case Found(k) =>
      assert LooseEquals(NameOf(xs[k]), NameOf(y));
      Ok(true)
    case Missed => Ok(false)
  }

  /** `xs.find((c) => c.name === y.name)`, as a position: it throws when a
      callback reads `name` of `null` first, and otherwise gives the first
      element with a strictly equal name. */
  function FindName(xs: seq<Value>, y: Value): (r: Result<Option<nat>, TypeError>)
    ensures r.Err? <==> FindThrows(xs, y)
    ensures r.Ok? ==> r.value == FindByName(xs, NameOf(y))
  {
    var steps := FindSteps(xs, y);
    match ScanSteps(steps)
    case Threw => Err(NullPropertyRead)
    case Found(k) =>
      FindByNameAt(xs, y, k);
      Ok(Some(k))
    case Missed =>
      FindByNameNone(xs, y);
      Ok(None)
  }

  /** A strict match after only misses is what `FindByName` finds. */
  lemma FindByNameAt(xs: seq<Value>, y: Value, k: nat)
    requires k < |xs| && FindStep(xs[k], y) == Hit
    requires forall i :: 0 <= i < k ==> FindStep(xs[i], y) == Miss
    ensures FindByName(xs, NameOf(y)) == Some(k)
  {
    var names := Names(xs);
    forall i | 0 <= i < k ensures names[i] != NameOf(y) {
      assert FindStep(xs[i], y) == Miss;
    }
    FirstIndexAt(names, NameOf(y), k);
  }

  /** Only misses means `FindByName` finds nothing. */
  lemma FindByNameNone(xs: seq<Value>, y: Value)
    requires forall i :: 0 <= i < |xs| ==> FindStep(xs[i], y) == Miss
    ensures FindByName(xs, NameOf(y)).None?
  {
    forall i | 0 <= i < |xs| ensures NameOf(xs[i]) != NameOf(y) {
      assert FindStep(xs[i], y) == Miss;
    }
  }

  /** The three arrays the diff fills: `_new`, `updated` and `toDelete`. */
  datatype Plan = Plan(toCreate: seq<Value>, toUpdate: seq<Value>, toDelete: seq<Value>)

  /** The first loop (index.js:110-114): push each local command whose name no
      remote record has. */
  function NewLoop(commands: seq<Value>, remote: seq<Value>): (r: Result<seq<Value>, TypeError>)
    ensures r.Err? <==> exists i :: 0 <= i < |commands| && SomeThrows(remote, commands[i])
    ensures r.Ok? ==> r.value == Filter(commands, IsNew(remote))
    decreases |commands|
  {
    if commands == [] then Ok([])
    else
      var found := SomeName(remote, commands[0]);
      var rest := NewLoop(commands[1..], remote);
      AnyShift(commands, c => SomeThrows(remote, c));
      if found.Err? then Err(found.error)
      else if rest.Err? then Err(rest.error)
      else if found.value then Ok(rest.value)
      else Ok([commands[0]] + rest.value)
  }

  /** The second loop (index.js:116-123): push each local command whose first
      strictly name-matched remote record is truthy and not `deepEqual` to it. */
  function ChangedLoop(commands: seq<Value>, remote: seq<Value>): (r: Result<seq<Value>, TypeError>)
    ensures r.Err? <==> exists i :: 0 <= i < |commands| && FindThrows(remote, commands[i])
    ensures r.Ok? ==> r.value == Filter(commands, IsChanged(remote))
    decreases |commands|
  {
    if commands == [] then Ok([])
    else
      var found := FindName(remote, commands[0]);
      var rest := ChangedLoop(commands[1..], remote);
      assert forall i :: 1 <= i < |commands| ==> commands[i] == commands[1..][i - 1];
      AnyShift(commands, c => FindThrows(remote, c));
      if found.Err? then Err(found.error)
      else if rest.Err? then Err(rest.error)
      else if found.value.Some? && Truthy(remote[found.value.value]) && !DeepEqual(commands[0], remote[found.value.value])
      then Ok([commands[0]] + rest.value)
      else Ok(rest.value)
  }

  /** The third loop (index.js:125-129): push each remote record whose name no
      local command has. */
  function StaleLoop(commands: seq<Value>, remote: seq<Value>): (r: Result<seq<Value>, TypeError>)
    ensures r.Err? <==> exists i :: 0 <= i < |remote| && SomeThrows(commands, remote[i])
    ensures r.Ok? ==> r.value == Filter(remote, IsStale(commands))
    decreases |remote|
  {
    if remote == [] then Ok([])
    else
      var found := SomeName(commands, remote[0]);
      var rest := StaleLoop(commands, remote[1..]);
      assert forall i :: 1 <= i < |remote| ==> remote[i] == remote[1..][i - 1];
      AnyShift(remote, r => SomeThrows(commands, r));
      if found.Err? then Err(found.error)
      else if rest.Err? then Err(rest.error)
      else if found.value then Ok(rest.value)
      else Ok([remote[0]] + rest.value)
  }

  /** What `for … of` over a discord.js `Collection` yields for the command
      registered under `id`: the two-element entry array `[id, command]`. */
  function CollectionEntry(id: string, record: Value): Value
  {
    Arr([Str(id), record])
  }

  /** The entries of a `Collection` of registered commands, in order. */
  function CollectionEntries(registered: seq<(string, Value)>): (es: seq<Value>)
    ensures |es| == |registered|
    ensures forall i :: 0 <= i < |registered| ==> es[i] == CollectionEntry(registered[i].0, registered[i].1)
  {
    seq(|registered|, i requires 0 <= i < |registered| => CollectionEntry(registered[i].0, registered[i].1))
  }

  /** An entry array has only the keys "0" and "1": no `name` and no `id`. */
  lemma EntryHasNoName(id: string, record: Value)
    ensures NameOf(CollectionEntry(id, record)).None?
    ensures Property(CollectionEntry(id, record), "id").None?
  {
    var keys := OwnKeys(CollectionEntry(id, record));
    assert keys[0] == NatToString(0) == "0";
    assert keys[1] == NatToString(1) == "1";
    assert keys == ["0", "1"];
  }

  /** Every local command has a `name` that is neither `undefined` nor `null`. */
  predicate AllNamed(commands: seq<Value>)
  {
    forall i :: 0 <= i < |commands| ==> NameOf(commands[i]).Some? && !NameOf(commands[i]).value.Null?
  }

  /** The third loop as written, over the entries of the registered
      `Collection`: when every local command is named, no entry's `name`
      matches, so every registered command lands in `toDelete`, those the
      local folder still defines included. */
  lemma EntriesAllStale(commands: seq<Value>, registered: seq<(string, Value)>)
    requires NullFree(commands) && AllNamed(commands)
    ensures StaleLoop(commands, CollectionEntries(registered)) == Ok(CollectionEntries(registered))
  {
    var es := CollectionEntries(registered);
    forall k | 0 <= k < |es|
      ensures !SomeThrows(commands, es[k]) && IsStale(commands)(es[k])
    {
      EntryHasNoName(registered[k].0, registered[k].1);
      forall i | 0 <= i < |commands|
        ensures SomeStep(commands[i], es[k]) == Miss
      {
      }
    }
    FilterKeepsAll(es, IsStale(commands));
  }

  /** The same registered command, as its record and as its entry: the loop
      over records keeps it, the loop over entries deletes it. */
  lemma EntryLoopDeletesLiveCommand()
    ensures StaleLoop([Obj([("name", Str("ping"))])], [Obj([("name", Str("ping")), ("id", Str("1"))])]) == Ok([])
    ensures StaleLoop([Obj([("name", Str("ping"))])], CollectionEntries([("1", Obj([("name", Str("ping")), ("id", Str("1"))]))]))
              == Ok([CollectionEntry("1", Obj([("name", Str("ping")), ("id", Str("1"))]))])
  {
    var local := Obj([("name", Str("ping"))]);
    var record := Obj([("name", Str("ping")), ("id", Str("1"))]);
    PingNames();
    assert SomeStep(local, record) == Hit;
    assert LooseEquals(NameOf([local][0]), NameOf(record));
    assert !IsStale([local])(record);
    assert Filter([record], IsStale([local])) == [] by {
      assert [record][1..] == [];
    }
    assert !SomeThrows([local], record);
    assert CollectionEntries([("1", record)]) == [CollectionEntry("1", record)];
    EntriesAllStale([local], [("1", record)]);
  }

  lemma PingNames()
    ensures NameOf(Obj([("name", Str("ping"))])) == Some(Str("ping"))
    ensures NameOf(Obj([("name", Str("ping")), ("id", Str("1"))])) == Some(Str("ping"))
  {
    assert OwnKeys(Obj([("name", Str("ping"))])) == ["name"];
    assert OwnKeys(Obj([("name", Str("ping")), ("id", Str("1"))])) == ["name", "id"];
  }

  /** Some callback of the three loops reads `name` of `null`. */
  predicate DiffThrows(commands: seq<Value>, remote: seq<Value>)
  {
    || (exists i :: 0 <= i < |commands| && SomeThrows(remote, commands[i]))
    || (exists i :: 0 <= i < |commands| && FindThrows(remote, commands[i]))
    || (exists i :: 0 <= i < |remote| && SomeThrows(commands, remote[i]))
  }

  /** The diff of index.js:105-129: the three loops one after the other, any
      `TypeError` ending it. When no callback throws, the lists are the three
      order-preserving filters. */
  function Diff(commands: seq<Value>, remote: seq<Value>): (r: Result<Plan, TypeError>)
    ensures r.Err? <==> DiffThrows(commands, remote)
    ensures r.Ok? ==> r.value == Lists(commands, remote)
  {
    var created := NewLoop(commands, remote);
    var updated := ChangedLoop(commands, remote);
    var stale := StaleLoop(commands, remote);
    if created.Err? then Err(created.error)
    else if updated.Err? then Err(updated.error)
    else if stale.Err? then Err(stale.error)
    else Ok(Plan(created.value, updated.value, stale.value))
  }

  /** The three lists the loops of index.js:110-129 build when no callback
      throws: each an order-preserving filter of its source. */
  function Lists(commands: seq<Value>, remote: seq<Value>): (p: Plan)
    ensures |p.toCreate| <= |commands| && |p.toUpdate| <= |commands| && |p.toDelete| <= |remote|
  {
    Plan(Filter(commands, IsNew(remote)), Filter(commands, IsChanged(remote)), Filter(remote, IsStale(commands)))
  }

  /** The tests of the three loops, as functions for `Filter`. */
  function IsNew(remote: seq<Value>): Value -> bool
  {
    (c: Value) => !HasRemote(remote, c)
  }

  function IsChanged(remote: seq<Value>): Value -> bool
  {
    (c: Value) => NeedsUpdate(remote, c)
  }

  function IsStale(commands: seq<Value>): Value -> bool
  {
    (r: Value) => !HasLocal(commands, r)
  }

  function IsUnchanged(remote: seq<Value>): Value -> bool
  {
    (c: Value) => Unchanged(remote, c)
  }

  /** The diff throws exactly when a loop callback reads `name` of `null`.
      Otherwise `_new` holds the local commands whose name no remote record
      has, `updated` those whose first name-matched remote record differs,
      and `toDelete` the remote records whose name no local command has. */
  lemma DiffMembership(commands: seq<Value>, remote: seq<Value>)
    ensures Diff(commands, remote).Err? <==> DiffThrows(commands, remote)
    ensures Diff(commands, remote).Ok? ==>
              forall c :: c in Diff(commands, remote).value.toCreate <==> c in commands && !HasRemote(remote, c)
    ensures Diff(commands, remote).Ok? ==>
              forall c :: c in Diff(commands, remote).value.toUpdate <==> c in commands && NeedsUpdate(remote, c)
    ensures Diff(commands, remote).Ok? ==>
              forall r :: r in Diff(commands, remote).value.toDelete <==> r in remote && !HasLocal(commands, r)
  {
  }

  /** When the diff does not throw, each list is an order-preserving
      subsequence of its source that keeps every copy of a selected command,
      duplicates included, and nothing else. */
  lemma DiffExact(commands: seq<Value>, remote: seq<Value>)
    requires Diff(commands, remote).Ok?
    ensures IsSubsequence(Diff(commands, remote).value.toCreate, commands)
    ensures IsSubsequence(Diff(commands, remote).value.toUpdate, commands)
    ensures IsSubsequence(Diff(commands, remote).value.toDelete, remote)
    ensures forall c :: multiset(Diff(commands, remote).value.toCreate)[c] ==
              if !HasRemote(remote, c) then multiset(commands)[c] else 0
    ensures forall c :: multiset(Diff(commands, remote).value.toUpdate)[c] ==
              if NeedsUpdate(remote, c) then multiset(commands)[c] else 0
    ensures forall r :: multiset(Diff(commands, remote).value.toDelete)[r] ==
              if !HasLocal(commands, r) then multiset(remote)[r] else 0
  {
    CreateExact(commands, remote);
    UpdateExact(commands, remote);
    DeleteExact(commands, remote);
  }

  /** No element is `null`. */
  predicate NullFree(vs: seq<Value>)
  {
    forall i :: 0 <= i < |vs| ==> !vs[i].Null?
  }

  /** Without `null` among the local commands and the remote records, no
      callback throws and the diff gives the three filtered lists. */
  lemma NoNullNoThrow(commands: seq<Value>, remote: seq<Value>)
    requires NullFree(commands) && NullFree(remote)
    ensures Diff(commands, remote) == Ok(Lists(commands, remote))
  {
    forall i, j | 0 <= i < |commands| && 0 <= j < |remote|
      ensures SomeStep(remote[j], commands[i]) != Throw
      ensures FindStep(remote[j], commands[i]) != Throw
      ensures SomeStep(commands[i], remote[j]) != Throw
    {
    }
  }

  /** A `null` local command throws as soon as one remote record exists: the
      first callback of `some` in the first loop reads its `name`. */
  lemma NullCommandThrows(commands: seq<Value>, remote: seq<Value>, i: nat)
    requires i < |commands| && commands[i].Null?
    requires remote != []
    ensures Diff(commands, remote).Err?
  {
    assert SomeStep(remote[0], commands[i]) == Throw;
    assert SomeThrows(remote, commands[i]);
  }

  /** A `null` command never reaches `updated`: `find` could only match it
      by calling its callback, which reads `name` of `null` and throws. So the
      logging of index.js:158-161 never reads `name` of `null`. */
  lemma UpdatedNeverNull(commands: seq<Value>, remote: seq<Value>)
    requires Diff(commands, remote).Ok?
    ensures NullFree(Diff(commands, remote).value.toUpdate)
  {
    var u := Diff(commands, remote).value.toUpdate;
    assert !DiffThrows(commands, remote);
    forall i | 0 <= i < |u| ensures !u[i].Null? {
      assert u[i] in commands && NeedsUpdate(remote, u[i]);
      var j :| 0 <= j < |commands| && commands[j] == u[i];
      NullFindThrows(remote, commands[j]);
    }
  }

  /** `find` on a non-empty array with a `null` needle throws at once. */
  lemma NullFindThrows(remote: seq<Value>, c: Value)
    requires remote != []
    ensures c.Null? ==> FindThrows(remote, c)
  {
    assert c.Null? ==> FindStep(remote[0], c) == Throw;
  }

  /** With nothing registered no callback runs: every local command, `null`
      included, is created and nothing is updated or deleted. */
  lemma NothingRegisteredCreatesAll(commands: seq<Value>)
    ensures Diff(commands, []) == Ok(Plan(commands, [], []))
  {
    FilterKeepsAll(commands, IsNew([]));
    assert Filter(commands, IsChanged([])) == [] by {
      forall c ensures !IsChanged([])(c) {
        assert FindByName([], NameOf(c)).None?;
      }
      FilterCounts(commands, IsChanged([]));
    }
  }

  lemma CreateExact(commands: seq<Value>, remote: seq<Value>)
    ensures IsSubsequence(Lists(commands, remote).toCreate, commands)
    ensures forall c :: multiset(Lists(commands, remote).toCreate)[c] ==
              if !HasRemote(remote, c) then multiset(commands)[c] else 0
  {
    FilterExact(commands, IsNew(remote));
  }

  lemma UpdateExact(commands: seq<Value>, remote: seq<Value>)
    ensures IsSubsequence(Lists(commands, remote).toUpdate, commands)
    ensures forall c :: multiset(Lists(commands, remote).toUpdate)[c] ==
              if NeedsUpdate(remote, c) then multiset(commands)[c] else 0
  {
    FilterExact(commands, IsChanged(remote));
  }

  lemma DeleteExact(commands: seq<Value>, remote: seq<Value>)
    ensures IsSubsequence(Lists(commands, remote).toDelete, remote)
    ensures forall r :: multiset(Lists(commands, remote).toDelete)[r] ==
              if !HasLocal(commands, r) then multiset(remote)[r] else 0
  {
    FilterExact(remote, IsStale(commands));
  }

  /** `_new` is the only order-preserving subsequence of `commands` holding
      every copy of the commands with no remote name and nothing else. */
  lemma CreateIsUnique(commands: seq<Value>, remote: seq<Value>, r: seq<Value>)
    requires IsSubsequence(r, commands)
    requires forall c :: multiset(r)[c] == if !HasRemote(remote, c) then multiset(commands)[c] else 0
    ensures r == Lists(commands, remote).toCreate
  {
    FilterUnique(r, commands, IsNew(remote));
  }

  /** A strict name match is also a loose one, so a command to update always
      has a remote name and is never also created. */
  lemma UpdateHasRemote(remote: seq<Value>, command: Value)
    requires NeedsUpdate(remote, command)
    ensures HasRemote(remote, command)
  {
    var i := FindByName(remote, NameOf(command)).value;
    assert LooseEquals(NameOf(remote[i]), NameOf(command));
  }

  /** `_new` and `updated` never share an element. */
  lemma CreateUpdateDisjoint(commands: seq<Value>, remote: seq<Value>)
    ensures forall c :: !(c in Lists(commands, remote).toCreate && c in Lists(commands, remote).toUpdate)
  {
    forall c | c in Lists(commands, remote).toUpdate
      ensures c !in Lists(commands, remote).toCreate
    {
      UpdateHasRemote(remote, c);
    }
  }

  /** No name is both kept locally and deleted remotely: a record in
      `toDelete` never shares its name with a command in `_new` or `updated`. */
  lemma DeleteNamesDisjoint(commands: seq<Value>, remote: seq<Value>)
    ensures forall c, r :: c in Lists(commands, remote).toCreate && r in Lists(commands, remote).toDelete ==>
              NameOf(c) != NameOf(r)
    ensures forall c, r :: c in Lists(commands, remote).toUpdate && r in Lists(commands, remote).toDelete ==>
              NameOf(c) != NameOf(r)
  {
    var p := Lists(commands, remote);
    forall c, r | (c in p.toCreate || c in p.toUpdate) && r in p.toDelete
      ensures NameOf(c) != NameOf(r)
    {
      var j :| 0 <= j < |commands| && commands[j] == c;
      assert !LooseEquals(NameOf(commands[j]), NameOf(r));
    }
  }

  /** A command whose first name-matched remote record is `deepEqual` to it
      is neither created nor updated. */
  lemma UnchangedIsLeftAlone(commands: seq<Value>, remote: seq<Value>, c: Value, i: nat)
    requires FindByName(remote, NameOf(c)) == Some(i)
    requires DeepEqual(c, remote[i])
    ensures c !in Lists(commands, remote).toCreate
    ensures c !in Lists(commands, remote).toUpdate
  {
    assert LooseEquals(NameOf(remote[i]), NameOf(c));
  }

  /** For a named local command, the update test in other words: the first
      remote record with a strictly equal name exists and has a different
      canonical form, so key order never forces an update. A record with a
      `name` is an array or object, hence truthy. */
  lemma NeedsUpdateIffCanonical(remote: seq<Value>, command: Value)
    requires WellFormed(command) && NameOf(command).Some?
    requires forall i :: 0 <= i < |remote| ==> WellFormed(remote[i])
    ensures NeedsUpdate(remote, command) <==>
              exists i :: 0 <= i < |remote| && ChangedMatch(remote, command, i)
  {
    var name := NameOf(command);
    match FindByName(remote, name)
    case None =>
      forall k | 0 <= k < |remote| ensures !ChangedMatch(remote, command, k) {
        assert NameOf(remote[k]) != name;
      }
    case Some(i) =>
      assert "name" in OwnKeys(remote[i]);
      assert IsObject(remote[i]);
      DeepEqualIffSameCanonical(command, remote[i]);
      forall k | 0 <= k < |remote| && ChangedMatch(remote, command, k)
        ensures k == i
      {
        assert NameOf(remote[i]) == name;
      }
      if NeedsUpdate(remote, command) {
        assert ChangedMatch(remote, command, i);
      }
  }

  /** `remote[i]` is the first record named like `command`, and its canonical
      form differs from the command's. */
  predicate ChangedMatch(remote: seq<Value>, command: Value, i: nat)
    requires WellFormed(command)
    requires forall i :: 0 <= i < |remote| ==> WellFormed(remote[i])
  {
    i < |remote| && NameOf(remote[i]) == NameOf(command) &&
    (forall j :: 0 <= j < i ==> NameOf(remote[j]) != NameOf(command)) &&
    Canonical(remote[i]) != Canonical(command)
  }

  /** A local command is unchanged when it has a remote name but needs no
      update. */
  predicate Unchanged(remote: seq<Value>, command: Value)
  {
    HasRemote(remote, command) && !NeedsUpdate(remote, command)
  }

  /** Every copy of every local command is in exactly one of `_new`,
      `updated` and the unchanged ones. */
  lemma DiffPartition(commands: seq<Value>, remote: seq<Value>)
    ensures multiset(commands) ==
      multiset(Lists(commands, remote).toCreate) + multiset(Lists(commands, remote).toUpdate)
        + multiset(Filter(commands, IsUnchanged(remote)))
  {
    var p := Lists(commands, remote);
    var u := Filter(commands, IsUnchanged(remote));
    forall c
      ensures multiset(commands)[c] == (multiset(p.toCreate) + multiset(p.toUpdate) + multiset(u))[c]
    {
      PartitionAt(commands, remote, c);
    }
  }

  lemma PartitionAt(commands: seq<Value>, remote: seq<Value>, c: Value)
    ensures multiset(commands)[c] == multiset(Lists(commands, remote).toCreate)[c]
              + multiset(Lists(commands, remote).toUpdate)[c] + multiset(Filter(commands, IsUnchanged(remote)))[c]
  {
    CreateExact(commands, remote);
    UpdateExact(commands, remote);
    FilterCounts(commands, IsUnchanged(remote));
    if NeedsUpdate(remote, c) {
      UpdateHasRemote(remote, c);
    }
  }

  /** Local data is compared with the whole remote record: when the record
      carries an `id` key that the local data lacks, a name-matched command is
      always updated, even if every other field agrees. */
  lemma IdForcesUpdate(commands: seq<Value>, remote: seq<Value>, c: Value, i: nat)
    requires c in commands
    requires FindByName(remote, NameOf(c)) == Some(i)
    requires WellFormed(c) && WellFormed(remote[i]) && IsObject(remote[i])
    requires "id" in OwnKeys(remote[i]) && "id" !in OwnKeys(c)
    ensures c in Lists(commands, remote).toUpdate
  {
    MissingKeyUnequal(c, remote[i], "id");
  }

  /** Names are not deduplicated: two local commands with the same name and
      no remote counterpart are both created, in order. */
  lemma DuplicateNamesBothCreated(c1: Value, c2: Value, remote: seq<Value>)
    requires NameOf(c1) == NameOf(c2)
    requires !HasRemote(remote, c1)
    ensures Lists([c1, c2], remote).toCreate == [c1, c2]
  {
    var created := (c: Value) => !HasRemote(remote, c);
    assert created(c2) by {
      forall i | 0 <= i < |remote| ensures !LooseEquals(NameOf(remote[i]), NameOf(c2)) {
        assert !LooseEquals(NameOf(remote[i]), NameOf(c1));
      }
    }
    assert [c1, c2][1..] == [c2];
    assert Filter([c2], created) == [c2];
  }
}

=== FILE: json.dfy ===
/** JSON-like values as the deploy code sees command data and remote command
    records, with the few pieces of JavaScript semantics it relies on:
    truthiness, `typeof`, `Object.keys`, property reads and the string
    conversion of template literals. */
module Json {
  import opened Results
  import opened Seqs

  /** A JavaScript value built from JSON. Numbers are integers; an object
      lists its properties in one fixed order. JavaScript would list
      integer-like keys first, in ascending order; the model keeps the order
      given, which `deepEqual` does not depend on. */
  datatype Value =
    | Null
    | Bool(b: bool)
    | Num(n: int)
    | Str(s: string)
    | Arr(items: seq<Value>)
    | Obj(fields: seq<(string, Value)>)

  /** The `TypeError` JavaScript throws when code reads a property of `null`. */
  datatype TypeError = NullPropertyRead

  /** The value is an array or a non-null object. */
  predicate IsObject(v: Value)
  {
    v.Arr? || v.Obj?
  }

  /** JavaScript truthiness: `null`, `false`, `0` and `""` are falsy; arrays and
      objects are truthy even when empty. */
  function Truthy(v: Value): (t: bool)
    ensures !t <==> v == Null || v == Bool(false) || v == Num(0) || v == Str("")
  {
    match v
    case Null => false
    case Bool(b) => b
    case Num(n) => n != 0
    case Str(s) => s != ""
    case Arr(_) => true
    case Obj(_) => true
  }

  /** The result of JavaScript's `typeof`, including its report of `null` as
      an object. */
  function TypeOf(v: Value): (t: string)
    ensures t == "object" <==> v.Null? || IsObject(v)
  {
    match v
    case Null => "object"
    case Bool(_) => "boolean"
    case Num(_) => "number"
    case Str(_) => "string"
    case Arr(_) => "object"
    case Obj(_) => "object"
  }

  /** Decimal digit character for 0..9. */
  function Digit(d: nat): (c: char)
    requires d < 10
    ensures '0' <= c <= '9'
    ensures c as int - '0' as int == d
  {
    (d + '0' as int) as char
  }

  /** The decimal representation of a natural number, without leading zeros. */
  function NatToString(n: nat): (s: string)
    ensures |s| > 0
    ensures forall i :: 0 <= i < |s| ==> '0' <= s[i] <= '9'
    decreases n
  {
    if n < 10 then [Digit(n)] else NatToString(n / 10) + [Digit(n % 10)]
  }

  /** The number a string of decimal digits denotes. */
  function DecimalValue(s: string): nat
    requires forall i :: 0 <= i < |s| ==> '0' <= s[i] <= '9'
    decreases |s|
  {
    if s == [] then 0 else 10 * DecimalValue(s[..|s| - 1]) + (s[|s| - 1] as int - '0' as int)
  }

  /** Reading the decimal representation back gives the number. */
  lemma {:induction false} DecimalRoundTrip(n: nat)
    ensures DecimalValue(NatToString(n)) == n
    decreases n
  {
    var s := NatToString(n);
    if n >= 10 {
      DecimalRoundTrip(n / 10);
      assert s[..|s| - 1] == NatToString(n / 10);
    }
  }

  /** Distinct indices have distinct property names. */
  lemma IndexKeyInjective()
    ensures forall i: nat, j: nat :: NatToString(i) == NatToString(j) ==> i == j
  {
    forall i: nat, j: nat | NatToString(i) == NatToString(j)
      ensures i == j
    {
      DecimalRoundTrip(i);
      DecimalRoundTrip(j);
    }
  }

  /** `Object.keys` of an array or object: the index strings "0", "1", … of an
      array, the property names of an object in the order the value lists
      them. Primitives have no keys here. */
  function OwnKeys(v: Value): (keys: seq<string>)
    ensures v.Arr? ==> |keys| == |v.items|
    ensures v.Obj? ==> |keys| == |v.fields|
    ensures !IsObject(v) ==> keys == []
  {
    match v
    case Arr(xs) => seq(|xs|, i requires 0 <= i < |xs| => NatToString(i))
    case Obj(fs) => seq(|fs|, i requires 0 <= i < |fs| => fs[i].0)
    case _ => []
  }

  /** The value stored under the `i`-th key of `OwnKeys(v)`. */
  function Child(v: Value, i: nat): Value
    requires i < |OwnKeys(v)|
  {
    match v
    case Arr(xs) => xs[i]
    case Obj(fs) => fs[i].1
  }

  /** The position of the first occurrence of `k` in `keys`. */
  function IndexOf(keys: seq<string>, k: string): (i: nat)
    requires k in keys
    ensures i < |keys| && keys[i] == k
    ensures forall j :: 0 <= j < i ==> keys[j] != k
  {
    if keys[0] == k then 0 else 1 + IndexOf(keys[1..], k)
  }

  /** `v[k]` for a key `k` that `v` has. */
  function Get(v: Value, k: string): Value
    requires k in OwnKeys(v)
  {
    Child(v, IndexOf(OwnKeys(v), k))
  }

  /** A property read `v.k`: `None` stands for `undefined`. */
  function Property(v: Value, k: string): (r: Option<Value>)
    ensures r.Some? <==> k in OwnKeys(v)
  {
    if k in OwnKeys(v) then Some(Get(v, k)) else None
  }

  /** The representation invariant of JavaScript objects: no property name
      occurs twice, at any depth. */
  predicate WellFormed(v: Value)
  {
    match v
    case Arr(xs) => forall i :: 0 <= i < |xs| ==> WellFormed(xs[i])
    case Obj(fs) => Distinct(OwnKeys(v)) && forall i :: 0 <= i < |fs| ==> WellFormed(fs[i].1)
    case _ => true
  }

  /** The keys of an array or a well-formed object never repeat. */
  lemma KeysDistinct(v: Value)
    requires WellFormed(v)
    ensures Distinct(OwnKeys(v))
  {
    if v.Arr? {
      IndexKeyInjective();
    }
  }

  /** In an array or a well-formed object, reading the `i`-th key gives the
      `i`-th value. */
  lemma GetChild(v: Value, i: nat)
    requires WellFormed(v)
    requires i < |OwnKeys(v)|
    ensures Get(v, OwnKeys(v)[i]) == Child(v, i)
  {
    KeysDistinct(v);
  }

  /** The text a template literal `${v}` produces for a property that may be
      missing: `undefined`, `null`, `true`, `42`, `-7`, the string itself, the
      elements joined by commas for an array, `[object Object]` for an object. */
  function Interpolate(p: Option<Value>): string
  {
    match p
    case None => "undefined"
    case Some(v) => ToJsString(v)
  }

  /** JavaScript's `String(v)`. */
  function ToJsString(v: Value): string
    decreases v, 1
  {
    match v
    case Null => "null"
    case Bool(b) => if b then "true" else "false"
    case Num(n) => if n < 0 then "-" + NatToString(-n) else NatToString(n)
    case Str(s) => s
    case Arr(xs) => JoinElements(v, 0)
    case Obj(_) => "[object Object]"
  }

  /** `Array.prototype.join(",")` from position `i` on; `null` elements become
      empty strings. */
  function JoinElements(v: Value, i: nat): string
    requires v.Arr? && i <= |v.items|
    decreases v, 0, |v.items| - i
  {
    if i == |v.items| then ""
    else
      var x := v.items[i];
      var text := if x.Null? then "" else ToJsString(x);
      if i + 1 == |v.items| then text else text + "," + JoinElements(v, i + 1)
  }

  /** Reading back the text of a number gives the number: a non-negative one
      prints as its decimal numeral, a negative one as `-` and the numeral of
      its magnitude. */
  lemma InterpolateNumber(n: int)
    ensures n >= 0 ==> DecimalValue(Interpolate(Some(Num(n)))) == n
    ensures n < 0 ==> var s := Interpolate(Some(Num(n)));
              s[0] == '-' && DecimalValue(s[1..]) == -n
  {
    if n >= 0 {
      DecimalRoundTrip(n);
    } else {
      DecimalRoundTrip(-n);
      assert Interpolate(Some(Num(n)))[1..] == NatToString(-n);
    }
  }

  /** A missing property prints as `undefined`, an array as its elements
      joined by commas with `null` left empty, an object as `[object Object]`. */
  lemma InterpolateExamples()
    ensures Interpolate(None) == "undefined"
    ensures Interpolate(Some(Arr([Num(1), Null, Str("a")]))) == "1,,a"
    ensures Interpolate(Some(Obj([("id", Num(7))]))) == "[object Object]"
  {
    assert NatToString(1) == "1";
    assert JoinElements(Arr([Num(1), Null, Str("a")]), 2) == "a";
    assert JoinElements(Arr([Num(1), Null, Str("a")]), 1) == ",a";
  }
}

=== FILE: loader.dfy ===
/** Loading and classifying the command files of a folder (index.js:53-79 and
    index.ts:41-73). The directory listing and the loading of each module are
    replaced by a sequence of files with what each one exports. */
module Loader {
  import opened Results
  import opened Seqs
  import opened Json

  /** What a command module exports, as far as deployment reads it: whether it
      has a `data` and a `run` property, the `data` itself, the `ignore` flag
      (`Null` when absent) and the `guildIds` array (empty when absent). */
  datatype Module = Module(hasData: bool, data: Value, hasRun: bool, ignore: Value, guildIds: seq<string>)

  /** A file of the commands folder. `exports` is `None` when what the file
      exports is not an object, so that the test `"data" in command` throws. */
  datatype CommandFile = CommandFile(fileName: string, exports: Option<Module>)

  /** A guild-scoped command: its data and the guilds to register it in. */
  datatype GuildScoped = GuildScoped(data: Value, guildIds: seq<string>)

  /** The two buckets: the data of global commands, and guild-scoped commands. */
  datatype Classified = Classified(commands: seq<Value>, privates: seq<GuildScoped>)

  /** How a variant treats a module: whether it requires `run` besides `data`,
      and whether it logs `command.data.name` for an ignored module. */
  datatype Rules = Rules(requireRun: bool, logsIgnoredData: bool)

  /** index.js requires `run`, and its log line reads the module's own `name`. */
  const JsRules := Rules(true, false)

  /** index.ts does not require `run`; with `opts.logs` its log line at
      index.ts:61 reads the name of the ignored module's data. */
  function TsRules(logs: bool): Rules
  {
    Rules(false, logs)
  }

  /** Only file names ending in `.js` are loaded. */
  predicate IsCommandFile(f: CommandFile)
  {
    EndsWith(f.fileName, ".js")
  }

  /** The log line for an ignored module reads `name` of `null` data. */
  predicate ReadsNullName(m: Module, rules: Rules)
  {
    rules.logsIgnoredData && m.hasData && (!rules.requireRun || m.hasRun) && Truthy(m.ignore) && m.data.Null?
  }

  /** Loading this file throws before classification can finish: its export
      is not an object, or the log line of an ignored module reads a property
      of `null`. */
  predicate Throws(f: CommandFile, rules: Rules)
  {
    IsCommandFile(f) && (f.exports.None? || ReadsNullName(f.exports.value, rules))
  }

  /** A module is deployed when it has `data` (and `run`, where the variant
      requires it) and its `ignore` flag is not truthy. */
  predicate Kept(m: Module, requireRun: bool)
  {
    m.hasData && (!requireRun || m.hasRun) && !Truthy(m.ignore)
  }

  /** A kept module with a non-empty `guildIds` array is guild-scoped. */
  predicate IsGuildScoped(m: Module)
  {
    |m.guildIds| > 0
  }

  function Empty(): Classified
  {
    Classified([], [])
  }

  /** Bucket contents side by side: those of `a` first. */
  function Append(a: Classified, b: Classified): Classified
  {
    Classified(a.commands + b.commands, a.privates + b.privates)
  }

  /** Propagates a throw from either part. */
  function Combine(a: Option<Classified>, b: Option<Classified>): Option<Classified>
  {
    if a.None? || b.None? then None else Some(Append(a.value, b.value))
  }

  lemma CombineAssociative(x: Option<Classified>, y: Option<Classified>, z: Option<Classified>)
    ensures Combine(x, Combine(y, z)) == Combine(Combine(x, y), z)
  {
    if x.Some? && y.Some? && z.Some? {
      assert x.value.commands + (y.value.commands + z.value.commands)
          == (x.value.commands + y.value.commands) + z.value.commands;
      assert x.value.privates + (y.value.privates + z.value.privates)
          == (x.value.privates + y.value.privates) + z.value.privates;
    }
  }

  /** What one file adds to the buckets: nothing when it is not a `.js` file or
      its module is skipped, its `data` to `commands` when it is global, its
      `data` and `guildIds` to `privates` when it is guild-scoped. */
  function FileContribution(f: CommandFile, rules: Rules): (r: Option<Classified>)
    ensures r.None? <==> Throws(f, rules)
    ensures r.Some? ==> |r.value.commands| + |r.value.privates| <= 1
  {
    if !IsCommandFile(f) then Some(Empty())
    else match f.exports
      case None => None
      case Some(m) =>
        if ReadsNullName(m, rules) then None
        else if !Kept(m, rules.requireRun) then Some(Empty())
        else if IsGuildScoped(m) then Some(Classified([], [GuildScoped(m.data, m.guildIds)]))
        else Some(Classified([m.data], []))
  }

  /** The classification loop over the folder, in directory order. */
  function Classify(files: seq<CommandFile>, rules: Rules): (r: Option<Classified>)
    ensures r.None? <==> exists i :: 0 <= i < |files| && Throws(files[i], rules)
    ensures r.Some? ==> forall p :: p in r.value.privates ==> |p.guildIds| > 0
    ensures r.Some? ==> |r.value.commands| + |r.value.privates| <= |files|
    decreases |files|
  {
    if files == [] then Some(Empty())
    else Combine(FileContribution(files[0], rules), Classify(files[1..], rules))
  }

  /** Classifying two runs of files one after the other is classifying each and
      putting the buckets side by side: the order of the folder is kept, and
      what one file does never depends on the others. */
  lemma {:induction false} ClassifyConcat(a: seq<CommandFile>, b: seq<CommandFile>, rules: Rules)
    ensures Classify(a + b, rules) == Combine(Classify(a, rules), Classify(b, rules))
    decreases |a|
  {
    if a == [] {
      assert a + b == b;
      var cb := Classify(b, rules);
      if cb.Some? {
        assert Append(Empty(), cb.value) == cb.value;
      }
    } else {
      var ab := a + b;
      assert ab[0] == a[0] && ab[1..] == a[1..] + b;
      ClassifyConcat(a[1..], b, rules);
      var f := FileContribution(a[0], rules);
      var ca, cb := Classify(a[1..], rules), Classify(b, rules);
      assert Classify(ab, rules) == Combine(f, Combine(ca, cb));
      assert Classify(a, rules) == Combine(f, ca);
      CombineAssociative(f, ca, cb);
    }
  }

  /** A skipped file — not a `.js` file, or a module without `data` (or `run`),
      or an ignored one whose log line does not throw — changes nothing: the loop continues past it. */
  lemma ClassifySkip(before: seq<CommandFile>, f: CommandFile, after: seq<CommandFile>, rules: Rules)
    requires !Throws(f, rules)
    requires !IsCommandFile(f) || (f.exports.Some? && !Kept(f.exports.value, rules.requireRun))
    ensures Classify(before + [f] + after, rules) == Classify(before + after, rules)
  {
    ClassifyConcat(before + [f], after, rules);
    ClassifyConcat(before, [f], rules);
    ClassifyConcat(before, after, rules);
    var c := Classify(before, rules);
    if c.Some? {
      assert Append(c.value, Empty()) == c.value;
    }
  }

  /** File `f` is a loaded, kept, global module whose data is `x`. */
  predicate GlobalFrom(f: CommandFile, rules: Rules, x: Value)
  {
    IsCommandFile(f) && f.exports.Some? && Kept(f.exports.value, rules.requireRun)
    && !IsGuildScoped(f.exports.value) && f.exports.value.data == x
  }

  /** File `f` is a loaded, kept, guild-scoped module that `p` describes. */
  predicate ScopedFrom(f: CommandFile, rules: Rules, p: GuildScoped)
  {
    IsCommandFile(f) && f.exports.Some? && Kept(f.exports.value, rules.requireRun)
    && IsGuildScoped(f.exports.value) && GuildScoped(f.exports.value.data, f.exports.value.guildIds) == p
  }

  /** The data of every deployed module lands in exactly one bucket: global
      data in `commands`, guild-scoped data with its guild ids in `privates`. */
  lemma ClassifyMembership(files: seq<CommandFile>, rules: Rules)
    requires Classify(files, rules).Some?
    ensures forall x :: x in Classify(files, rules).value.commands <==>
              exists i :: 0 <= i < |files| && GlobalFrom(files[i], rules, x)
    ensures forall p :: p in Classify(files, rules).value.privates <==>
              exists i :: 0 <= i < |files| && ScopedFrom(files[i], rules, p)
  {
    CommandsMembership(files, rules);
    PrivatesMembership(files, rules);
  }

  lemma {:induction false} CommandsMembership(files: seq<CommandFile>, rules: Rules)
    requires Classify(files, rules).Some?
    ensures forall x :: x in Classify(files, rules).value.commands <==>
              exists i :: 0 <= i < |files| && GlobalFrom(files[i], rules, x)
    decreases |files|
  {
    if files != [] {
      var tail := files[1..];
      CommandsMembership(tail, rules);
      var head := FileContribution(files[0], rules).value;
      assert forall x :: x in head.commands <==> GlobalFrom(files[0], rules, x);
      assert forall i :: 0 <= i < |tail| ==> tail[i] == files[i + 1];
      forall x | exists i :: 0 <= i < |files| && GlobalFrom(files[i], rules, x)
        ensures GlobalFrom(files[0], rules, x) || exists i :: 0 <= i < |tail| && GlobalFrom(tail[i], rules, x)
      {
        var i :| 0 <= i < |files| && GlobalFrom(files[i], rules, x);
        if i > 0 {
          assert GlobalFrom(tail[i - 1], rules, x);
        }
      }
    }
  }

  lemma {:induction false} PrivatesMembership(files: seq<CommandFile>, rules: Rules)
    requires Classify(files, rules).Some?
    ensures forall p :: p in Classify(files, rules).value.privates <==>
              exists i :: 0 <= i < |files| && ScopedFrom(files[i], rules, p)
    decreases |files|
  {
    if files != [] {
      var tail := files[1..];
      PrivatesMembership(tail, rules);
      var head := FileContribution(files[0], rules).value;
      assert forall p :: p in head.privates <==> ScopedFrom(files[0], rules, p);
      assert forall i :: 0 <= i < |tail| ==> tail[i] == files[i + 1];
      forall p | exists i :: 0 <= i < |files| && ScopedFrom(files[i], rules, p)
        ensures ScopedFrom(files[0], rules, p) || exists i :: 0 <= i < |tail| && ScopedFrom(tail[i], rules, p)
      {
        var i :| 0 <= i < |files| && ScopedFrom(files[i], rules, p);
        if i > 0 {
          assert ScopedFrom(tail[i - 1], rules, p);
        }
      }
    }
  }

  /** The two variants differ only in the `run` check: index.js drops a module
      without `run` that index.ts deploys. */
  lemma RunCheckOnlyInJs(m: Module)
    ensures Kept(m, true) ==> Kept(m, false)
    ensures Kept(m, false) && !Kept(m, true) <==> m.hasData && !m.hasRun && !Truthy(m.ignore)
  {
  }

  /** An ignored module with `null` data stops index.ts with `opts.logs`, whose
      log line reads `command.data.name`; without logs, or under index.js, it
      is skipped like any ignored module. */
  lemma IgnoredNullData(f: CommandFile)
    requires IsCommandFile(f) && f.exports.Some?
    requires f.exports.value.hasData && f.exports.value.data.Null? && Truthy(f.exports.value.ignore)
    ensures Classify([f], TsRules(true)).None?
    ensures Classify([f], TsRules(false)) == Some(Empty())
    ensures Classify([f], JsRules) == Some(Empty())
  {
    assert [f][1..] == [];
    assert Append(Empty(), Empty()) == Empty();
  }
}

=== FILE: path_text.dfy ===
/** Cutting a path at `/` and joining segments with `/`, which are inverse to
    each other on segments that contain no `/`. */
module PathText {

  /** The segments joined by `/`. */
  function Join(segs: seq<string>): string
    requires |segs| > 0
    decreases |segs|
  {
    if |segs| == 1 then segs[0] else segs[0] + "/" + Join(segs[1..])
  }

  /** The position of the first `/`. */
  function FirstSlash(s: string): (i: nat)
    requires '/' in s
    ensures i < |s| && s[i] == '/' && '/' !in s[..i]
  {
    if s[0] == '/' then 0 else
      var i := 1 + FirstSlash(s[1..]);
      assert s[..i] == [s[0]] + s[1..][..i - 1];
      i
  }

  /** The path cut at every `/`. */
  function Split(s: string): (segs: seq<string>)
    ensures |segs| > 0
    ensures forall i :: 0 <= i < |segs| ==> '/' !in segs[i]
    decreases |s|
  {
    if '/' in s then
      var i := FirstSlash(s);
      [s[..i]] + Split(s[i + 1..])
    else [s]
  }

  /** Cutting a joined path gives back slash-free segments. */
  lemma {:induction false} SplitJoin(segs: seq<string>)
    requires |segs| > 0
    requires forall i :: 0 <= i < |segs| ==> '/' !in segs[i]
    ensures Split(Join(segs)) == segs
    decreases |segs|
  {
    if |segs| > 1 {
      var x := segs[0];
      var s := Join(segs);
      assert s == x + "/" + Join(segs[1..]);
      assert s[|x|] == '/';
      assert s[..|x|] == x;
      assert FirstSlash(s) == |x|;
      assert s[|x| + 1..] == Join(segs[1..]);
      SplitJoin(segs[1..]);
      assert segs == [x] + segs[1..];
    }
  }

  /** Joining the pieces of a path gives the path back. */
  lemma {:induction false} JoinSplit(s: string)
    ensures Join(Split(s)) == s
    decreases |s|
  {
    if '/' in s {
      var i := FirstSlash(s);
      JoinSplit(s[i + 1..]);
      var segs := Split(s);
      assert segs[1..] == Split(s[i + 1..]);
      assert s == s[..i] + "/" + s[i + 1..];
    }
  }

  lemma JoinCons(x: string, rest: seq<string>)
    requires |rest| > 0
    ensures Join([x] + rest) == x + "/" + Join(rest)
  {
    assert ([x] + rest)[1..] == rest;
  }

}

=== FILE: requests.dfy ===
/** The requests the deploy code sends, an oracle for their outcomes, and the
    sequential execution shared by both variants: requests awaited one after
    the other inside a single `try`, the first rejection ending the run. */
module Requests {
  import opened Json
  import opened Routes
  import opened Loader

  /** A REST call: the path and, for POST and PUT, the JSON body. */
  datatype Request =
    | Delete(path: string)
    | Post(path: string, body: Value)
    | Put(path: string, body: Value)

  /** Whether the request issued `k`-th (counting from 0) succeeds. Positions
      past the end of the oracle succeed. */
  predicate Succeeds(outcomes: seq<bool>, k: nat)
  {
    k >= |outcomes| || outcomes[k]
  }

  /** The requests actually issued, and whether all of them succeeded. */
  datatype Run = Run(issued: seq<Request>, ok: bool)

  /** Issues `planned` in order, the first at position `start` of the oracle,
      stopping right after the first failure. */
  function Execute(planned: seq<Request>, outcomes: seq<bool>, start: nat): (r: Run)
    ensures |r.issued| <= |planned| && r.issued == planned[..|r.issued|]
    ensures r.ok <==> forall j :: start <= j < start + |planned| ==> Succeeds(outcomes, j)
    ensures r.ok ==> r.issued == planned
    ensures !r.ok ==> |r.issued| > 0 && !Succeeds(outcomes, start + |r.issued| - 1)
    ensures forall j :: start <= j < start + |r.issued| - 1 ==> Succeeds(outcomes, j)
  {
    IssueStopsAtFirstFailure(planned, outcomes, start);
    Issue(planned, outcomes, start)
  }

  /** The loop of awaited requests behind `Execute`. */
  function Issue(planned: seq<Request>, outcomes: seq<bool>, start: nat): Run
    decreases |planned|
  {
    if planned == [] then Run([], true)
    else if !Succeeds(outcomes, start) then Run([planned[0]], false)
    else
      var rest := Issue(planned[1..], outcomes, start + 1);
      Run([planned[0]] + rest.issued, rest.ok)
  }

  lemma {:induction false} IssueStopsAtFirstFailure(planned: seq<Request>, outcomes: seq<bool>, start: nat)
    ensures var r := Issue(planned, outcomes, start);
      && |r.issued| <= |planned| && r.issued == planned[..|r.issued|]
      && (r.ok <==> forall j :: start <= j < start + |planned| ==> Succeeds(outcomes, j))
      && (r.ok ==> r.issued == planned)
      && (!r.ok ==> |r.issued| > 0 && !Succeeds(outcomes, start + |r.issued| - 1))
      && (forall j :: start <= j < start + |r.issued| - 1 ==> Succeeds(outcomes, j))
    decreases |planned|
  {
    if planned != [] && Succeeds(outcomes, start) {
      IssueStopsAtFirstFailure(planned[1..], outcomes, start + 1);
      var rest := Issue(planned[1..], outcomes, start + 1);
      assert [planned[0]] + planned[1..][..|rest.issued|] == planned[..1 + |rest.issued|];
      if rest.ok {
        assert [planned[0]] + planned[1..] == planned;
      }
    }
  }

  /** Running two batches back to back inside one `try` is running the first
      and, only if all of it succeeded, the second from where it ended. */
  lemma ExecuteAppend(p: seq<Request>, q: seq<Request>, outcomes: seq<bool>, start: nat)
    ensures !Execute(p, outcomes, start).ok ==> Execute(p + q, outcomes, start) == Execute(p, outcomes, start)
    ensures Execute(p, outcomes, start).ok ==>
              Execute(p + q, outcomes, start) ==
                Run(p + Execute(q, outcomes, start + |p|).issued, Execute(q, outcomes, start + |p|).ok)
  {
    IssueAppend(p, q, outcomes, start);
  }

  lemma {:induction false} IssueAppend(p: seq<Request>, q: seq<Request>, outcomes: seq<bool>, start: nat)
    ensures !Issue(p, outcomes, start).ok ==> Issue(p + q, outcomes, start) == Issue(p, outcomes, start)
    ensures Issue(p, outcomes, start).ok ==>
              Issue(p + q, outcomes, start) ==
                Run(p + Issue(q, outcomes, start + |p|).issued, Issue(q, outcomes, start + |p|).ok)
    decreases |p|
  {
    if p == [] {
      assert p + q == q;
    } else {
      var pq := p + q;
      assert pq[0] == p[0] && pq[1..] == p[1..] + q;
      if Succeeds(outcomes, start) {
        IssueAppend(p[1..], q, outcomes, start + 1);
        if Issue(p[1..], outcomes, start + 1).ok {
          var second := Issue(q, outcomes, start + |p|);
          assert [p[0]] + (p[1..] + second.issued) == p + second.issued;
        }
      }
    }
  }

  /** The number of successes among the `n` oracle positions from `start`. */
  function SuccessCount(outcomes: seq<bool>, start: nat, n: nat): (c: nat)
    ensures c <= n
    ensures c == n <==> forall j :: start <= j < start + n ==> Succeeds(outcomes, j)
    decreases n
  {
    if n == 0 then 0
    else (if Succeeds(outcomes, start) then 1 else 0) + SuccessCount(outcomes, start + 1, n - 1)
  }

  /** A command-guild pair: the data to post and the guild to post it to. */
  type Target = (Value, string)

  /** The pairs the guild loops visit: command by command, and for each command
      its guild ids in order. */
  function Pairs(privates: seq<GuildScoped>): (ps: seq<Target>)
    ensures |ps| == 0 <==> forall k :: 0 <= k < |privates| ==> |privates[k].guildIds| == 0
    decreases |privates|
  {
    if privates == [] then []
    else
      assert forall k :: 1 <= k < |privates| ==> privates[k] == privates[1..][k - 1];
      TargetsOf(privates[0]) + Pairs(privates[1..])
  }

  /** One pair per guild id of a guild-scoped command. */
  function TargetsOf(p: GuildScoped): (ts: seq<Target>)
    ensures |ts| == |p.guildIds|
    ensures forall i :: 0 <= i < |ts| ==> ts[i] == (p.data, p.guildIds[i])
  {
    seq(|p.guildIds|, i requires 0 <= i < |p.guildIds| => (p.data, p.guildIds[i]))
  }

  /** The pairs of two runs of commands are those of the first run followed by
      those of the second: the visit is command-major. */
  lemma {:induction false} PairsAppend(a: seq<GuildScoped>, b: seq<GuildScoped>)
    ensures Pairs(a + b) == Pairs(a) + Pairs(b)
    decreases |a|
  {
    if a == [] {
      assert a + b == b;
    } else {
      assert (a + b)[0] == a[0] && (a + b)[1..] == a[1..] + b;
      PairsAppend(a[1..], b);
    }
  }

  /** A pair is visited exactly when its guild id is one of its command's. */
  lemma {:induction false} PairsMembership(privates: seq<GuildScoped>)
    ensures forall d, g :: (d, g) in Pairs(privates) <==>
              exists i :: 0 <= i < |privates| && privates[i].data == d && g in privates[i].guildIds
    decreases |privates|
  {
    if privates != [] {
      PairsMembership(privates[1..]);
      forall d, g
        ensures (d, g) in Pairs(privates) <==>
                  exists i :: 0 <= i < |privates| && privates[i].data == d && g in privates[i].guildIds
      {
        var head := TargetsOf(privates[0]);
        assert (d, g) in head <==> privates[0].data == d && g in privates[0].guildIds by {
          if (d, g) in head {
            var j :| 0 <= j < |head| && head[j] == (d, g);
          }
          if privates[0].data == d && g in privates[0].guildIds {
            var j :| 0 <= j < |privates[0].guildIds| && privates[0].guildIds[j] == g;
            assert head[j] == (d, g);
          }
        }
        if exists i :: 1 <= i < |privates| && privates[i].data == d && g in privates[i].guildIds {
          var i :| 1 <= i < |privates| && privates[i].data == d && g in privates[i].guildIds;
          assert privates[1..][i - 1] == privates[i];
        }
        if exists i :: 0 <= i < |privates[1..]| && privates[1..][i].data == d && g in privates[1..][i].guildIds {
          var i :| 0 <= i < |privates[1..]| && privates[1..][i].data == d && g in privates[1..][i].guildIds;
          assert privates[i + 1] == privates[1..][i];
        }
      }
    }
  }

  /** The POST that registers a command in a guild. */
  function GuildPost(appId: string, t: Target): Request
  {
    Post(Path(GuildCommands(appId, t.1)), t.0)
  }

  /** The POSTs for a run of pairs, one per pair and in the same order. */
  function GuildPosts(appId: string, ts: seq<Target>): (rs: seq<Request>)
    ensures |rs| == |ts|
    ensures forall i :: 0 <= i < |ts| ==> rs[i] == GuildPost(appId, ts[i])
    decreases |ts|
  {
    if ts == [] then [] else [GuildPost(appId, ts[0])] + GuildPosts(appId, ts[1..])
  }
}

=== FILE: results.dfy ===
/** Optional values and results with an error, used wherever the JavaScript code
    reads `undefined` or throws. */
module Results {

  /** A value that may be absent (`undefined` in JavaScript). */
  datatype Option<+T> = None | Some(value: T)

  /** Either a result or the error that was thrown instead. */
  datatype Result<+T, +E> = Ok(value: T) | Err(error: E)
}

=== FILE: routes.dfy ===
/** The REST routes of the application-commands API (the `Routes` object of
    index.ts), and a parser that recovers a route from its path. */
module Routes {
  import opened Results
  import opened PathText

  /** The four routes the deploy code addresses. */
  datatype Route =
    | Commands(appId: string)
    | Command(appId: string, commandId: string)
    | GuildCommands(appId: string, guildId: string)
    | GuildCommand(appId: string, guildId: string, commandId: string)

  /** The path of a route, as the template literals build it. */
  function Path(r: Route): string
  {
    match r
    case Commands(a) => "/applications/" + a + "/commands"
    case Command(a, id) => "/applications/" + a + "/commands/" + id
    case GuildCommands(a, g) => "/applications/" + a + "/guilds/" + g + "/commands"
    case GuildCommand(a, g, id) => "/applications/" + a + "/guilds/" + g + "/commands/" + id
  }

  /** A single-command route extends the collection route by `/` and the id. */
  lemma RoutesNest(appId: string, guildId: string, commandId: string)
    ensures Path(Command(appId, commandId)) == Path(Commands(appId)) + "/" + commandId
    ensures Path(GuildCommand(appId, guildId, commandId)) == Path(GuildCommands(appId, guildId)) + "/" + commandId
  {
  }

  /** No `/` inside any identifier of the route. */
  predicate SlashFree(r: Route)
  {
    && '/' !in r.appId
    && (r.Command? || r.GuildCommand? ==> '/' !in r.commandId)
    && (r.GuildCommands? || r.GuildCommand? ==> '/' !in r.guildId)
  }

  /** The `/`-separated segments of a route's path. */
  function Segments(r: Route): seq<string>
  {
    match r
    case Commands(a) => ["", "applications", a, "commands"]
    case Command(a, id) => ["", "applications", a, "commands", id]
    case GuildCommands(a, g) => ["", "applications", a, "guilds", g, "commands"]
    case GuildCommand(a, g, id) => ["", "applications", a, "guilds", g, "commands", id]
  }

  lemma CommandsText(a: string)
    ensures "/" + ("applications/" + (a + "/commands")) == "/applications/" + a + "/commands"
  {
  }

  lemma CommandText(a: string, id: string)
    ensures "/" + ("applications/" + (a + "/" + ("commands/" + id))) == "/applications/" + a + "/commands/" + id
  {
  }

  lemma JoinCommands(a: string)
    ensures Path(Commands(a)) == Join(Segments(Commands(a)))
  {
    var j2 := Join([a, "commands"]);
    assert [a, "commands"] == [a] + ["commands"];
    JoinCons(a, ["commands"]);
    assert j2 == a + "/commands";
    var j1 := Join(["applications", a, "commands"]);
    assert ["applications", a, "commands"] == ["applications"] + [a, "commands"];
    JoinCons("applications", [a, "commands"]);
    assert j1 == "applications/" + j2;
    var j0 := Join(["", "applications", a, "commands"]);
    assert ["", "applications", a, "commands"] == [""] + ["applications", a, "commands"];
    JoinCons("", ["applications", a, "commands"]);
    assert j0 == "/" + j1;
    CommandsText(a);
  }

  lemma JoinCommand(a: string, id: string)
    ensures Path(Command(a, id)) == Join(Segments(Command(a, id)))
  {
    var j3 := Join(["commands", id]);
    assert ["commands", id] == ["commands"] + [id];
    JoinCons("commands", [id]);
    assert j3 == "commands/" + id;
    var j2 := Join([a, "commands", id]);
    assert [a, "commands", id] == [a] + ["commands", id];
    JoinCons(a, ["commands", id]);
    assert j2 == a + "/" + j3;
    var j1 := Join(["applications", a, "commands", id]);
    assert ["applications", a, "commands", id] == ["applications"] + [a, "commands", id];
    JoinCons("applications", [a, "commands", id]);
    assert j1 == "applications/" + j2;
    var j0 := Join(["", "applications", a, "commands", id]);
    assert ["", "applications", a, "commands", id] == [""] + ["applications", a, "commands", id];
    JoinCons("", ["applications", a, "commands", id]);
    assert j0 == "/" + j1;
    CommandText(a, id);
  }

  lemma GuildCommandsText(a: string, g: string)
    ensures "/" + ("applications/" + (a + "/" + ("guilds/" + (g + "/commands"))))
         == "/applications/" + a + "/guilds/" + g + "/commands"
  {
  }

  lemma GuildCommandText(a: string, g: string, id: string)
    ensures "/" + ("applications/" + (a + "/" + ("guilds/" + (g + "/" + ("commands/" + id)))))
         == "/applications/" + a + "/guilds/" + g + "/commands/" + id
  {
  }

  lemma JoinGuildCommands(a: string, g: string)
    ensures Path(GuildCommands(a, g)) == Join(Segments(GuildCommands(a, g)))
  {
    var j4 := Join([g, "commands"]);
    assert [g, "commands"] == [g] + ["commands"];
    JoinCons(g, ["commands"]);
    assert j4 == g + "/commands";
    var j3 := Join(["guilds", g, "commands"]);
    assert ["guilds", g, "commands"] == ["guilds"] + [g, "commands"];
    JoinCons("guilds", [g, "commands"]);
    assert j3 == "guilds/" + j4;
    var j2 := Join([a, "guilds", g, "commands"]);
    assert [a, "guilds", g, "commands"] == [a] + ["guilds", g, "commands"];
    JoinCons(a, ["guilds", g, "commands"]);
    assert j2 == a + "/" + j3;
    var j1 := Join(["applications", a, "guilds", g, "commands"]);
    assert ["applications", a, "guilds", g, "commands"] == ["applications"] + [a, "guilds", g, "commands"];
    JoinCons("applications", [a, "guilds", g, "commands"]);
    assert j1 == "applications/" + j2;
    var j0 := Join(["", "applications", a, "guilds", g, "commands"]);
    assert ["", "applications", a, "guilds", g, "commands"] == [""] + ["applications", a, "guilds", g, "commands"];
    JoinCons("", ["applications", a, "guilds", g, "commands"]);
    assert j0 == "/" + j1;
    GuildCommandsText(a, g);
  }

  lemma JoinGuildCommand(a: string, g: string, id: string)
    ensures Path(GuildCommand(a, g, id)) == Join(Segments(GuildCommand(a, g, id)))
  {
    var j5 := Join(["commands", id]);
    assert ["commands", id] == ["commands"] + [id];
    JoinCons("commands", [id]);
    assert j5 == "commands/" + id;
    var j4 := Join([g, "commands", id]);
    assert [g, "commands", id] == [g] + ["commands", id];
    JoinCons(g, ["commands", id]);
    assert j4 == g + "/" + j5;
    var j3 := Join(["guilds", g, "commands", id]);
    assert ["guilds", g, "commands", id] == ["guilds"] + [g, "commands", id];
    JoinCons("guilds", [g, "commands", id]);
    assert j3 == "guilds/" + j4;
    var j2 := Join([a, "guilds", g, "commands", id]);
    assert [a, "guilds", g, "commands", id] == [a] + ["guilds", g, "commands", id];
    JoinCons(a, ["guilds", g, "commands", id]);
    assert j2 == a + "/" + j3;
    var j1 := Join(["applications", a, "guilds", g, "commands", id]);
    assert ["applications", a, "guilds", g, "commands", id] == ["applications"] + [a, "guilds", g, "commands", id];
    JoinCons("applications", [a, "guilds", g, "commands", id]);
    assert j1 == "applications/" + j2;
    var j0 := Join(["", "applications", a, "guilds", g, "commands", id]);
    assert ["", "applications", a, "guilds", g, "commands", id] == [""] + ["applications", a, "guilds", g, "commands", id];
    JoinCons("", ["applications", a, "guilds", g, "commands", id]);
    assert j0 == "/" + j1;
    GuildCommandText(a, g, id);
  }

  /** The template literal of each route is its segments joined by `/`. */
  lemma PathIsJoin(r: Route)
    ensures Path(r) == Join(Segments(r))
  {
    match r
    case Commands(a) => JoinCommands(a);
    case Command(a, id) => JoinCommand(a, id);
    case GuildCommands(a, g) => JoinGuildCommands(a, g);
    case GuildCommand(a, g, id) => JoinGuildCommand(a, g, id);
  }

  /** The route a path names, if it has the shape of one. */
  function Parse(p: string): Option<Route>
  {
    ParseSegments(Split(p))
  }

  /** The route whose segments these are, if any. */
  function ParseSegments(s: seq<string>): Option<Route>
  {
    if |s| < 4 || s[0] != "" || s[1] != "applications" then None
    else if |s| == 4 && s[3] == "commands" then Some(Commands(s[2]))
    else if |s| == 5 && s[3] == "commands" then Some(Command(s[2], s[4]))
    else if |s| == 6 && s[3] == "guilds" && s[5] == "commands" then Some(GuildCommands(s[2], s[4]))
    else if |s| == 7 && s[3] == "guilds" && s[5] == "commands" then Some(GuildCommand(s[2], s[4], s[6]))
    else None
  }

  lemma ParseSegmentsOfRoute(r: Route)
    ensures ParseSegments(Segments(r)) == Some(r)
  {
    assert "guilds" != "commands";
  }

  /** Parsing the path of a route with slash-free identifiers recovers it. */
  lemma ParsePath(r: Route)
    requires SlashFree(r)
    ensures Parse(Path(r)) == Some(r)
  {
    PathIsJoin(r);
    SplitJoin(Segments(r));
    ParseSegmentsOfRoute(r);
  }

  /** Whatever parses as a route is that route's path, with slash-free
      identifiers. */
  lemma PathOfParse(p: string)
    requires Parse(p).Some?
    ensures SlashFree(Parse(p).value)
    ensures Path(Parse(p).value) == p
  {
    var r := Parse(p).value;
    SegmentsOfParse(Split(p));
    PathIsJoin(r);
    JoinSplit(p);
  }

  /** Segments that parse as a route are that route's segments. */
  lemma SegmentsOfParse(s: seq<string>)
    requires ParseSegments(s).Some?
    ensures Segments(ParseSegments(s).value) == s
  {
    if |s| == 4 {
      assert s == ["", "applications", s[2], "commands"];
    } else if |s| == 5 {
      assert s == ["", "applications", s[2], "commands", s[4]];
    } else if |s| == 6 {
      assert s == ["", "applications", s[2], "guilds", s[4], "commands"];
    } else {
      assert s == ["", "applications", s[2], "guilds", s[4], "commands", s[6]];
    }
  }

  /** Distinct routes with slash-free identifiers have distinct paths. */
  lemma PathInjective(r1: Route, r2: Route)
    requires SlashFree(r1) && SlashFree(r2)
    requires Path(r1) == Path(r2)
    ensures r1 == r2
  {
    ParsePath(r1);
    ParsePath(r2);
  }
}

=== FILE: seqs.dfy ===
/** Sequence helpers: the order-preserving filter that every `for … push` loop of
    the deploy code computes, and facts about it. */
module Seqs {
  import opened Results

  /** The elements of `s` that satisfy `keep`, in their original order; the
      functional form of a loop that pushes each kept element onto an array. */
  function Filter<T(!new)>(s: seq<T>, keep: T -> bool): (r: seq<T>)
    ensures |r| <= |s|
    ensures forall x :: x in r <==> x in s && keep(x)
    decreases |s|
  {
    if s == [] then []
    else if keep(s[0]) then [s[0]] + Filter(s[1..], keep)
    else Filter(s[1..], keep)
  }

  /** The position of the first occurrence of `x` in `xs`, if any
      (`Array.prototype.findIndex` with an equality test). */
  function FirstIndex<T(==)>(xs: seq<T>, x: T): (r: Option<nat>)
    ensures r.Some? ==> r.value < |xs| && xs[r.value] == x
    ensures r.Some? ==> forall j :: 0 <= j < r.value ==> xs[j] != x
    ensures r.None? <==> x !in xs
    decreases |xs|
  {
    if xs == [] then None
    else if xs[0] == x then Some(0)
    else
      var rest := FirstIndex(xs[1..], x);
      if rest.None? then None else Some(rest.value + 1)
  }

  /** The first occurrence is the one with no occurrence before it. */
  lemma FirstIndexAt<T>(xs: seq<T>, x: T, k: nat)
    requires k < |xs| && xs[k] == x
    requires forall j :: 0 <= j < k ==> xs[j] != x
    ensures FirstIndex(xs, x) == Some(k)
  {
  }

  /** Some element of a non-empty sequence has a property exactly when its
      head has it or some element of its tail has. */
  lemma AnyShift<T>(xs: seq<T>, p: T -> bool)
    requires |xs| > 0
    ensures (exists i :: 0 <= i < |xs| && p(xs[i])) <==> p(xs[0]) || exists i :: 0 <= i < |xs[1..]| && p(xs[1..][i])
  {
    assert forall i :: 1 <= i < |xs| ==> xs[i] == xs[1..][i - 1];
  }

  /** What one callback of `some` or `find` does with an element: returns
      `true`, returns `false`, or throws. */
  datatype Step = Hit | Miss | Throw

  /** How a scan over the elements ends. */
  datatype Scan = Threw | Found(at: nat) | Missed

  /** `some` and `find` call their callback on one element after the other
      and stop at the first call that returns `true` or throws. */
  function ScanSteps(steps: seq<Step>): (r: Scan)
    ensures r.Threw? <==> exists j :: 0 <= j < |steps| && steps[j] == Throw && forall i :: 0 <= i < j ==> steps[i] == Miss
    ensures r.Found? ==> r.at < |steps| && steps[r.at] == Hit && forall i :: 0 <= i < r.at ==> steps[i] == Miss
    ensures r.Missed? <==> forall i :: 0 <= i < |steps| ==> steps[i] == Miss
    decreases |steps|
  {
    if steps == [] then Missed
    else if steps[0] == Throw then Threw
    else if steps[0] == Hit then Found(0)
    else
      var rest := ScanSteps(steps[1..]);
      assert forall i :: 1 <= i < |steps| ==> steps[i] == steps[1..][i - 1];
      match rest
      case Threw => Threw
      case Found(k) =>
        assert steps[k + 1] == Hit;
        Found(k + 1)
      case Missed =>
        assert forall i :: 0 <= i < |steps| ==> steps[i] == Miss by {
          forall i | 1 <= i < |steps| ensures steps[i] == Miss {
            assert steps[i] == steps[1..][i - 1];
          }
        }
        Missed
  }

  /** `r` can be obtained from `s` by deleting elements, keeping the order. */
  predicate IsSubsequence<T(==)>(r: seq<T>, s: seq<T>)
    decreases |s|
  {
    r == [] || (s != [] && ((r[0] == s[0] && IsSubsequence(r[1..], s[1..])) || IsSubsequence(r, s[1..])))
  }

  /** The set of elements of a sequence. */
  function Elements<T(!new)>(s: seq<T>): (r: set<T>)
    ensures forall x :: x in r <==> x in s
  {
    set x | x in s
  }

  /** No element occurs twice. */
  predicate Distinct<T(==)>(s: seq<T>)
  {
    forall i, j :: 0 <= i < j < |s| ==> s[i] != s[j]
  }

  /** Whether `s` ends with `suffix` (JavaScript's `String.prototype.endsWith`). */
  predicate EndsWith(s: string, suffix: string)
  {
    |suffix| <= |s| && s[|s| - |suffix|..] == suffix
  }

  lemma SplitHead<T>(s: seq<T>)
    requires s != []
    ensures s == [s[0]] + s[1..]
    ensures multiset(s) == multiset{s[0]} + multiset(s[1..])
  {
  }

  /** The filter keeps exactly the occurrences of kept values: every copy of a
      kept value survives and no copy of a dropped one does. */
  lemma {:induction false} FilterCounts<T(!new)>(s: seq<T>, keep: T -> bool)
    ensures forall x :: multiset(Filter(s, keep))[x] == if keep(x) then multiset(s)[x] else 0
    decreases |s|
  {
    if s != [] {
      SplitHead(s);
      FilterCounts(s[1..], keep);
    }
  }

  /** The filter never reorders: its result is a subsequence of its input. */
  lemma {:induction false} FilterIsSubsequence<T(!new)>(s: seq<T>, keep: T -> bool)
    ensures IsSubsequence(Filter(s, keep), s)
    decreases |s|
  {
    if s != [] {
      FilterIsSubsequence(s[1..], keep);
      var r := Filter(s, keep);
      if keep(s[0]) {
        assert r[0] == s[0] && r[1..] == Filter(s[1..], keep);
      }
    }
  }

  /** A filter that keeps every element returns the sequence itself. */
  lemma {:induction false} FilterKeepsAll<T(!new)>(s: seq<T>, keep: T -> bool)
    requires forall i :: 0 <= i < |s| ==> keep(s[i])
    ensures Filter(s, keep) == s
    decreases |s|
  {
    if s != [] {
      assert keep(s[0]);
      assert forall i :: 0 <= i < |s[1..]| ==> s[1..][i] == s[i + 1];
      FilterKeepsAll(s[1..], keep);
      assert s == [s[0]] + s[1..];
    }
  }

  /** Both facts about the filter together: order kept, copies counted. */
  lemma FilterExact<T(!new)>(s: seq<T>, keep: T -> bool)
    ensures IsSubsequence(Filter(s, keep), s)
    ensures forall x :: multiset(Filter(s, keep))[x] == if keep(x) then multiset(s)[x] else 0
  {
    FilterIsSubsequence(s, keep);
    FilterCounts(s, keep);
  }

  /** A subsequence never holds more copies of a value than the sequence. */
  lemma {:induction false} SubsequenceCounts<T>(r: seq<T>, s: seq<T>)
    requires IsSubsequence(r, s)
    ensures multiset(r) <= multiset(s)
    decreases |s|
  {
    if r != [] {
      SplitHead(s);
      if r[0] == s[0] && IsSubsequence(r[1..], s[1..]) {
        SplitHead(r);
        SubsequenceCounts(r[1..], s[1..]);
      } else {
        SubsequenceCounts(r, s[1..]);
      }
    }
  }

  /** The filter is the ONLY order-preserving subsequence that keeps every
      occurrence of the kept values and none of the others: the two properties
      of `FilterCounts` and `FilterIsSubsequence` determine it. */
  lemma {:induction false} FilterUnique<T(!new)>(r: seq<T>, s: seq<T>, keep: T -> bool)
    requires IsSubsequence(r, s)
    requires forall x :: multiset(r)[x] == if keep(x) then multiset(s)[x] else 0
    ensures r == Filter(s, keep)
    decreases |s|
  {
    if s == [] {
    } else if r == [] {
      FilterCounts(s, keep);
    } else {
      SplitHead(s);
      var x := s[0];
      if keep(x) {
        if r[0] == x && IsSubsequence(r[1..], s[1..]) {
          SplitHead(r);
          FilterUnique(r[1..], s[1..], keep);
        } else {
          SubsequenceCounts(r, s[1..]);
          assert false;
        }
      } else {
        assert multiset(r)[x] == 0;
        assert r[0] != x by {
          SplitHead(r);
        }
        FilterUnique(r, s[1..], keep);
      }
    }
  }

  /** A duplicate-free sequence has as many distinct elements as positions. */
  lemma {:induction false} DistinctCardinality<T(!new)>(s: seq<T>)
    requires Distinct(s)
    ensures |Elements(s)| == |s|
    decreases |s|
  {
    if s != [] {
      DistinctCardinality(s[1..]);
      assert Elements(s) == {s[0]} + Elements(s[1..]);
      assert s[0] !in Elements(s[1..]);
    }
  }

  /** Two duplicate-free sequences of the same length, all of whose elements
      of the first occur in the second, hold the same elements. */
  lemma SameElementsBySize<T(!new)>(a: seq<T>, b: seq<T>)
    requires Distinct(a) && Distinct(b) && |a| == |b|
    requires forall x :: x in a ==> x in b
    ensures Elements(a) == Elements(b)
  {
    DistinctCardinality(a);
    DistinctCardinality(b);
    var A, B := Elements(a), Elements(b);
    assert A <= B;
    if A != B {
      var y :| y in B && y !in A;
      assert A <= B - {y};
      assert |B - {y}| == |B| - 1;
      SubsetCardinality(A, B - {y});
      assert false;
    }
  }

  lemma {:induction false} SubsetCardinality<T>(A: set<T>, B: set<T>)
    requires A <= B
    ensures |A| <= |B|
    decreases |A|
  {
    if A != {} {
      var x :| x in A;
      SubsetCardinality(A - {x}, B - {x});
    }
  }
}
